=== FILE: README.md ===
# neptun-cnc-monitoring — a Dafny model of the firmware's decision logic

The firmware runs on an ESP32 board next to a CNC machine. It reads the machine's
status pin, publishes the status over MQTT, serves a small HTTP configuration
portal (with a captive-portal DNS responder in access-point mode) and shows
status and debug lines on an SSD1306 OLED panel. This project models the pure,
sequential parts of that firmware in Dafny and proves properties of them:

- `MicroPython/main.py`:
  - the query-string decoder `parse_form_data`;
  - the rule that applies a submitted form to `current_config`;
  - request-line parsing, the known-path test, the captive-portal redirect and the GET dispatch of `handle_request`;
  - the DNS answer that `DNSServer.process_requests` builds;
  - the `publish_mqtt_status` state machine and its payload;
  - `get_cnc_status`;
  - the polling bound of `connect_wifi`;
  - the boot-time mode choice of `main`;
  - the condition under which `start_mqtt_timer` arms the periodic publish.
- `MicroPython/writer.py`:
  - `DisplayWriter`: `draw_pixel`, `draw_line` (Bresenham), `write_char`, the `write_text` cursor walk, `get_text_width`, `center_text` and `truncate_text`;
  - `CNCStatusDisplay`: the bounded debug log (`add_debug`, `clear_debug`) and the frame that `update_status` draws.

Modules and files:

| module | file | models |
|---|---|---|
| `Wrappers` | wrappers.dfy | `Option` |
| `Text` | text.dfy | the Python `str` operations the firmware relies on: `split`, `split(sep, 1)`, `strip()`, `int()`, `str()` |
| `Form` | form.dfy | `parse_form_data`; the result is an insertion-ordered dictionary |
| `Config` | config.dfy | `current_config` as a map from names to string or integer values, and the form-apply rule |
| `Cnc` | cnc.dfy | `get_cnc_status` |
| `Http` | http.dfy | `handle_request`: the reply as a datatype, the stored configuration afterwards, and the status line text |
| `Dns` | dns.dfy | the captive DNS answer as bytes, read back field by field as RFC 1035 lays it out |
| `Mqtt` | mqtt.dfy | `publish_mqtt_status` over `(client present, last_status)` |
| `Network` | network.dfy | `connect_wifi`, the boot mode choice and `start_mqtt_timer`'s condition |
| `Writer` | writer.dfy | `DisplayWriter` with the 5x9 font; drawing returns the set of pixels set |
| `StatusDisplay` | status_display.dfy | `CNCStatusDisplay`: the debug log and the list of drawing commands of a frame |

Hardware and environment become parameters:

- the status pin reading is an `int`;
- the answers of `wlan.isconnected()` are a function from the poll number to `bool`;
- whether the MQTT transport delivers a message is a `bool`;
- the access point's own address is a string;
- the display's presence and font are fields of `DisplayWriter`.

Integers are unbounded throughout; the firmware's values are Python integers, which are unbounded too. Python's `//` on a positive divisor agrees with Dafny's `/`, and every division in the model has a positive divisor.

Behaviour of the code that the model keeps as written:

- `/scan` is matched by prefix (main.py:249). In station mode `/scanner` therefore reaches the scan handler, which asks about the `ssid` field of the query. In access-point mode `/scanner` is not a known path and is redirected (`Http.ScanPrefixReachesScan`, `Http.ScannerIsUnknown`).
- `/config` is matched exactly (main.py:258), yet `/config?x` counts as known (main.py:236). A GET for `/config?x` therefore gets 404 in both modes and is never redirected (`Http.ConfigQueryNotFound`).
- The captive-portal redirect comes before the method check. In access-point mode any method on an unknown path gets the 302. A non-GET on a known path gets no reply at all.
- A password consisting only of whitespace is skipped like an empty one (main.py:276). A blank `ip` or `mqtt_broker` clears the setting. `mqtt_port` and `mqtt_interval` take any integer `int()` accepts, with no range check, so values outside 0..65535 are stored too. MicroPython's one-argument `int()` parses with base 0, so `mqtt_port=0x75B` stores 1883 (`Text.ParsePrefixed`).
- A `GET /?...` whose form names no known key still saves the configuration unchanged and reboots (`Config.SubmitUnknownKeys`, `Http.FormSubmissionSaves`).
- The DNS answer copies QDCOUNT into ANCOUNT but appends exactly one answer record (`Dns.ResponseHeader`). The record's data is whatever number of octets the address string yields. Only a four-part dotted address gives a well-formed A record (`Dns.ResponseAnswer`).
- `connect_wifi` polls `isconnected()` once per loop test, at most 21 times, with at most 20 one-second sleeps. It then reports one further poll (`Network.ConnectWifi`).
- `truncate_text` with fewer than three character cells slices with a negative bound. The result is then longer than the budget (`Writer.TruncateNarrowBudget`).
- `update_status` returns before adding `debug_text` to the log when no display is available, so that text is lost (`StatusDisplay.UpdateStatus`).

## Model

| member | source | states |
|---|---|---|
| Form.Put | MicroPython/main.py:195 | `form_data[key] = value`: the key set grows by the key, the key now maps to the value, every other key keeps its entry, an existing key keeps its position and distinct keys stay distinct |
| Form.PlusToSpace | MicroPython/main.py:195 | `replace('+', ' ')`: same length, and each position holds a space where the input had `+` and the input's character otherwise |
| Form.UnescapeClean | MicroPython/main.py:195 | `replace('%20', ' ')` leaves a string in which no `%20` starts unchanged, stray `%` included |
| Form.UnescapeFirst | MicroPython/main.py:195 | `replace('%20', ' ')` works left to right: the first `%20` becomes one space, the text before it is kept, and the rest is replaced in turn |
| Form.DecodeValueSpec | MicroPython/main.py:195 | after the two replacements no `+` and no `%20` is left, no character other than the space is introduced, and a value with no `+` and no `%20` is unchanged |
| Form.UnescapeLeavesNoEscape | MicroPython/main.py:195 | the left-to-right `%20` replacement leaves no `%20`, not even one formed across a replaced run |
| Form.ParseForm | MicroPython/main.py:192-196 | the dictionary has each key once and no key contains `=`, because pieces split at their first `=` |
| Form.CollectLastWins | MicroPython/main.py:194-195 | over the piece loop, a key maps to the decoded value of the last piece that carries it |
| Form.CollectAbsent | MicroPython/main.py:194-195 | a key that no piece with `=` carries gets no entry |
| Form.ParseFormLastWins | MicroPython/main.py:192-196 | a later duplicate key overwrites an earlier one: the key maps to the decoded value of the last `&`-piece with that key |
| Form.ParseFormAbsent | MicroPython/main.py:192-196 | only `&`-pieces that contain `=` produce entries |
| Text.JoinSplit | MicroPython/main.py:193 | `str.split(sep)` loses nothing: joining the pieces with the separator gives the input back |
| Text.SplitJoin | MicroPython/main.py:59 | splitting the join of separator-free parts gives the parts back |
| Text.CountSplitOnce | MicroPython/main.py:195 | `pair.split('=', 1)` yields a key and a value exactly when `=` occurs (the guard before it), and the remainder holds one separator fewer |
| Text.StripShape | MicroPython/main.py:281 | `strip()` removes a blank prefix and a blank suffix and nothing else, and the result neither starts nor ends with whitespace |
| Text.StripEmptyIffBlank | MicroPython/main.py:276-277 | `not value.strip()` holds exactly when the value is all whitespace |
| Text.ParseInt | MicroPython/main.py:279 | `int()` succeeds exactly on an optional sign, an optional `0x`/`0o`/`0b` prefix and at least one digit of the selected base, between whitespace; never on a blank string |
| Text.ParsePrefixed | MicroPython/main.py:279 | `int('0x…')`, `int('0o…')` and `int('0b…')` read the digits in base 16, 8 and 2 |
| Text.ParseDecimal | MicroPython/main.py:279 | a run of decimal digits, leading zeros included, reads as its decimal value |
| Text.ParseIntPadded | MicroPython/main.py:279 | whitespace on either side of the text does not change what `int()` returns |
| Text.ParseSign | MicroPython/main.py:279 | directly in front of an unsigned literal, `+` keeps the value and `-` negates it; both fail where the literal fails |
| Text.ParseShowInt | MicroPython/main.py:279 | `int(str(n)) == n` for every integer |
| Config.Apply | MicroPython/main.py:274-281 | the loop over the form's items never adds or removes a configuration key |
| Config.ApplyPointwise | MicroPython/main.py:274-281 | since dictionary keys are distinct, the loop gives each key exactly the effect of its own submitted value, independently of the order |
| Config.Submit | MicroPython/main.py:270-281 | a submission never adds or removes a configuration key |
| Config.SubmitRules | MicroPython/main.py:270-281 | key by key:<br>• an unmentioned key keeps its value;<br>• a blank password is skipped;<br>• `mqtt_port`/`mqtt_interval` change only to an integer `int()` accepts;<br>• a blank value leaves other keys unchanged, except `ip` and `mqtt_broker`, which it clears;<br>• other values are stored stripped |
| Config.SubmitUnknownKeys | MicroPython/main.py:274-275 | a form that names no configuration key changes nothing |
| Config.Redacted | MicroPython/main.py:259-260 | the `/config` copy has the password set to `''` and every other entry as stored |
| Cnc.StatusOf | MicroPython/main.py:80-81 | ONLINE exactly when the pin reads 1 |
| Http.FirstLine | MicroPython/main.py:224 | the first line holds no newline, is a prefix of the request, and ends where the request ends or at its first newline |
| Http.ParseRequestLineNone | MicroPython/main.py:219-228 | the request is dropped exactly when its first line has fewer than two spaces, including the empty request |
| Http.MalformedDropped | MicroPython/main.py:219-228 | a malformed or empty request sends no bytes and leaves the configuration alone |
| Http.RequestLineOf | MicroPython/main.py:224-225 | `<verb> <path> <version>` on the first line parses to that verb and path, whatever header lines follow |
| Http.KnownPathIff | MicroPython/main.py:233-238 | a path is known iff it is `/`, `/status`, `/scan` or `/config`, or one of them followed by `?` |
| Http.CaptiveRedirect | MicroPython/main.py:241-245 | a well-formed request gets the 302 to `http://<ap address>` exactly in access-point mode on an unknown path, whatever the method |
| Http.RouteGet | MicroPython/main.py:248-297 | the GET dispatch:<br>• always answers;<br>• 404 exactly for a path no branch handles;<br>• `/config` sends the redacted copy;<br>• `/status` sends the CNC status read from the pin, with the pin value;<br>• `/` sends the index page;<br>• a save happens only for `/?...` and stores the applied form |
| Http.Respond | MicroPython/main.py:241-297 | a parsed request gets no reply exactly when it is not a GET and not caught by the captive portal; the configuration changes only through a save |
| Http.Handle | MicroPython/main.py:217-297 | the stored configuration after a request is the saved one for a save and the old one otherwise |
| Http.NotFoundIff | MicroPython/main.py:241-297 | 404 exactly for a well-formed GET on an unrouted path that the captive portal did not catch |
| Http.NonGetSilent | MicroPython/main.py:241-248 | a non-GET that the captive portal does not catch gets no reply |
| Http.ConfigReplyRedacted | MicroPython/main.py:258-263 | the configuration is only ever sent with the password blanked, and sending it does not change the stored configuration |
| Http.OnlySaveChangesConfig | MicroPython/main.py:270-287 | the only exchange that changes the stored configuration is `GET /?<form>`, which stores the form applied to the old configuration |
| Http.EmptyQueryScan | MicroPython/main.py:250-252 | a scan without a query asks about the SSID `''` |
| Http.ScanPrefixReachesScan | MicroPython/main.py:249-252 | in station mode every GET on a path starting with `/scan` reaches the scan handler and asks about the query's `ssid` field (`''` without one); in access-point mode an unknown one is redirected |
| Http.ScanForSsid | MicroPython/main.py:249-252 | `GET /scan?ssid=<name>` asks about `name` in both modes |
| Http.ScannerIsUnknown | MicroPython/main.py:233-249 | `/scanner` starts with `/scan` but is not a known path |
| Http.ConfigQueryNotFound | MicroPython/main.py:233-297 | `GET /config?<anything>` gets 404 in both modes |
| Http.FormSubmissionSaves | MicroPython/main.py:270-287 | `GET /?<query>` saves the form applied to the configuration in both modes |
| Http.ConfigRead | MicroPython/main.py:258-263 | `GET /config` returns the redacted copy in both modes |
| Http.Head | MicroPython/main.py:241-297 | a dropped request sends nothing. Every other reply starts with an `HTTP/1.1` status line:<br>• the captive-portal redirect is `302 Found` followed by `Location: <url>`;<br>• an unrouted path is `404 Not Found`;<br>• every other reply is `200 OK` |
| Http.PieceValue | MicroPython/main.py:195 | a clean `key=value` piece carries `key` and decodes to `value` |
| Http.TwoFieldForm | MicroPython/main.py:192-196 | the clean form `k1=v1&k2=v2` decodes to exactly those two entries |
| Http.SubmitSsidPort | MicroPython/main.py:270-281 | submitting `ssid=<name>&mqtt_port=<n>` stores the name and the port as an integer and keeps the password |
| Http.SubmitThenReadBack | MicroPython/main.py:258-287 | save then `GET /config`: the submitted SSID and port come back, with an empty password |
| Dns.Slice | MicroPython/main.py:60 | Python's clamped slice: its length and its elements |
| Dns.Octets | MicroPython/main.py:59 | on success there is one byte per dotted part |
| Dns.Process | MicroPython/main.py:56-63 | no reply exactly for an empty datagram; a fault exactly when the address does not convert to bytes |
| Dns.ResponseLayout | MicroPython/main.py:60 | the response is laid out as:<br>• the query's ID;<br>• `81 80`;<br>• QDCOUNT twice;<br>• four zero bytes;<br>• the query from offset 12;<br>• the fixed answer prefix and the address |
| Dns.ResponseHeader | MicroPython/main.py:60 | read as a header (RFC 1035 section 4.1.1):<br>• the ID is the query's;<br>• the flags are QR, RD and RA;<br>• ANCOUNT equals QDCOUNT;<br>• NSCOUNT and ARCOUNT are 0 |
| Dns.ResponseAnswer | MicroPython/main.py:60 | with a four-byte address the appended record (RFC 1035 sections 4.1.3-4.1.4) is an A/IN record named by a pointer to offset 12, TTL 60, carrying the address; the length is the query's plus 16 |
| Dns.AddressRoundTrip | MicroPython/main.py:59-60 | a dotted address converts back to exactly its octets, so every non-empty query gets a reply |
| Mqtt.Publish | MicroPython/main.py:160-177 | without a client nothing happens; `last_status` changes only on a successful publish, to the published status |
| Mqtt.PublishDecision | MicroPython/main.py:162-177 | a message is sent iff:<br>• a client exists;<br>• the status changed or the call is forced;<br>• the topic is a string;<br>• the transport delivers.<br>It is the status payload on the topic. A failed attempt drops the client and keeps `last_status` |
| Mqtt.PayloadRoundTrip | MicroPython/main.py:166-168 | the payload's `cycle` field reads back as 1 exactly for ONLINE, and the payload is 32 characters |
| Mqtt.PayloadFields | MicroPython/main.py:166-168 | read back as a JSON object, the payload has exactly the members `cycle`, `L1`, `L2`, `L3` in that order: `cycle` is 1 exactly for ONLINE and the other three are 0 |
| Mqtt.UnforcedRepeatPublishesOnce | MicroPython/main.py:165-177 | two unforced calls that see the same status publish at most once |
| Mqtt.ForcedAlwaysAttempts | MicroPython/main.py:165-174 | a forced call with a client and a string topic publishes whatever the previous status |
| Network.ConnectWifi | MicroPython/main.py:123-136 | without credentials it fails at once; otherwise it makes at most 20 waits, stops at the first poll that sees the link, and reports one further poll |
| Network.BootMode | MicroPython/main.py:366-372 | station mode exactly when credentials are set and the poll after the wait loop sees the link. The wait loop stops at the first successful poll among the first 21, or after 20 sleeps |
| Network.TimerPlanFor | MicroPython/main.py:182-184 | the periodic publish is armed, every `interval * 1000` ms, exactly for a positive integer interval with a broker set; a string interval raises |
| Network.DefaultsPlan | MicroPython/main.py:41-49 | the first-time configuration has credentials and arms a 5-second timer |
| Writer.DrawPixel | MicroPython/writer.py:89-92 | only a pixel on the display is set, and it is set exactly when the display exists and the pixel is on it |
| Writer.TextWidth | MicroPython/writer.py:199-201 | the width is `len(text) * char_width`; on a found display that is at least one pixel per character and zero only for the empty text |
| Writer.TextWidthAppend | MicroPython/writer.py:199-201 | the width of two texts side by side is the sum of their widths |
| Writer.CenterX | MicroPython/writer.py:199-211 | the floor-divided left edge leaves a right margin equal to the left one or one pixel larger |
| Writer.PyPrefix | MicroPython/writer.py:219 | Python's `s[:k]` is a prefix whose length follows the negative-index and clamping rules |
| Writer.Truncate | MicroPython/writer.py:213-219 | a text that fits is unchanged; a longer one becomes a prefix followed by `...`, and has exactly `max_chars` characters when `max_chars` is at least 3 |
| Writer.TruncateFits | MicroPython/writer.py:199-219 | the result's `get_text_width` is within `max_width` whenever the text fitted or at least three cells are available |
| Writer.TruncateNarrowBudget | MicroPython/writer.py:215-219 | with fewer than three cells, the truncated text comes out longer than `max_chars` |
| Writer.TruncatePanelWidth | MicroPython/writer.py:213-219 | on the 128-pixel panel with 6-pixel cells a label is cut to 21 characters |
| Writer.GlyphIndex | MicroPython/writer.py:150-155 | a printable code (32..126) selects glyph `code - 32` and any other code selects the space glyph 0, so the index is always in 0..94 |
| Writer.WriteChar | MicroPython/writer.py:142-172 | the pixels set are exactly those whose glyph exists, that lie in the 5x9 cell within the glyph's rows, whose bit `0x80 >> col` is set and that are on the display |
| Writer.UnprintableAsSpace | MicroPython/writer.py:150-152 | a character outside 32..126 is drawn exactly as a space |
| Writer.VisibleCount | MicroPython/writer.py:186-192 | the characters drawn are the text without its newlines |
| Writer.PlaceChar | MicroPython/writer.py:186-197 | one step of the cursor walk:<br>• a newline returns to the start column one line down;<br>• any other character is placed and advances one cell;<br>• the cursor wraps when it reaches `width - char_width` |
| Writer.WriteText | MicroPython/writer.py:174-197 | the cells drawn:<br>• are those the cursor rules give (a newline returns to x one line down; any other character advances one cell; wrap at `width - char_width`);<br>• carry the text's non-newline characters in order;<br>• the first is at (x, y);<br>• they are in reading order without overlap;<br>• none is right of the wrap column except at the start column |
| Writer.CellsAppend | MicroPython/writer.py:185-197 | writing `a + b` draws the cells of `a`, then those of `b` from the cursor `a` left |
| Writer.StraightRun | MicroPython/writer.py:185-197 | newline-free text that stays left of the wrap column puts character i at (cx + i·char_width, cy) |
| Writer.NewlineStep | MicroPython/writer.py:187-189 | a newline draws nothing and continues at the left edge, `char_height + 1` pixels lower |
| Writer.WrapStep | MicroPython/writer.py:191-197 | the character that reaches the wrap column is drawn at the cursor, and the next starts at the left edge one line down |
| Writer.BresenhamStep | MicroPython/writer.py:114-120 | one step of the error-term update moves at least one coordinate, never moves a finished one, and keeps the error term's closed form |
| Writer.DrawLine | MicroPython/writer.py:94-120 | the walk:<br>• terminates;<br>• starts at (x1, y1) and ends at (x2, y2);<br>• moves to an adjacent pixel each step;<br>• stays in the endpoints' rectangle;<br>• has at most \|dx\|+\|dy\|+1 points.<br>The pixels set are its on-screen points |
| StatusDisplay.AddDebug | MicroPython/writer.py:270-275 | the log then has at most 10 lines, ends with the new text, and is a suffix of the old log followed by the text |
| StatusDisplay.AddAllWindow | MicroPython/writer.py:270-275 | after any sequence of `add_debug` calls the log is exactly the ten most recent lines in order |
| StatusDisplay.ClearDebugRestarts | MicroPython/writer.py:277-279 | after `clear_debug` the log holds the ten most recent lines added since |
| StatusDisplay.Header | MicroPython/writer.py:238-254 | the five fixed commands all lie above the debug area |
| StatusDisplay.DebugRowsOnPanel | MicroPython/writer.py:261-265 | every debug row is a label at the left edge between y = 45 and the panel's bottom |
| StatusDisplay.DebugRowsExact | MicroPython/writer.py:261-265 | while rows stay above the bottom, line i is drawn at y = 45 + 9·i |
| StatusDisplay.UpdateStatus | MicroPython/writer.py:230-268 | without a display nothing is drawn and the debug text is dropped; otherwise the log gains the text and the frame starts with the header |
| StatusDisplay.DebugArea | MicroPython/writer.py:256-265 | the frame shows the (at most) two newest log lines, oldest first, truncated, at y = 45 and y = 54 |
| StatusDisplay.NewestDebugShown | MicroPython/writer.py:256-265 | a non-empty debug text is the last row of the frame drawn with it |
| StatusDisplay.FrameOnPanel | MicroPython/writer.py:238-265 | every command of a frame lies between the panel's top and bottom edge |

## Left out

- Sockets, `recv(1024)` truncation and UTF-8 decoding of the request, the 512-byte streaming of `index.html`, `machine.reset()` and the sleeps. The request is taken as an already-decoded string. A save is the `Saved` reply, after which the device reboots.
- The supervisor loop of `start_server` (main.py:305-356). This includes the reference to `errno`, which is never imported (main.py:340), so a failed non-blocking `accept` raises `NameError` into the fatal handler. The model makes no claim about that loop.
- `load_config`/`save_config` and `json.load`/`json.dumps`. JSON bodies are opaque and replies carry the values they would encode. Configuration values other than strings and integers (JSON booleans, floats, null, lists) are not modelled.
- `check_ssid_visible`: hardware scanning. `ScanReply` carries the SSID asked about, not the scan result.
- `connect_mqtt`, the `umqtt` transport and the client id. Whether a publish is delivered is an input.
- Timer hardware, the display refresh timer, and re-entrancy between timer callbacks and the loop.
- The `print` and `add_debug_line` breadcrumbs of `publish_mqtt_status`, `connect_wifi` and the handlers; they do not affect the decisions modelled.
- The SSD1306/I2C driver, `clear`/`show`/`draw_hline`/`draw_vline`/`draw_rect`, `get_text_height`, `init_display` and `update_display`, and the `display_*` helpers of main.py. These are hardware calls or string composition around them.
- Writer.WriteChar: requires a display and a non-empty font. The source's fallback to the driver's built-in `display.text` (and its crash when there is no display) is a foreign call.
- Writer.WriteText: requires a non-empty font for the same reason.
- Writer.DrawLine, Writer.DrawPixel, Writer.WriteChar, Writer.WriteText: the `color` argument is not modelled. The result is the set of pixels set to colour 1, the default every caller in the firmware uses.
- Text.ParseInt: MicroPython's `int()` also skips `_` between digits; the model rejects strings holding `_`.
- Writer.TextWidth, Writer.CenterX, Writer.Truncate: model a writer whose display was found. Without a display `char_width` is never set, and these helpers raise `AttributeError`.
- Http.RouteGet: the `/status` reply reads the pin once for both fields. The source reads it twice (`get_cnc_status()`, then `STATUS_PIN.value()`), so a pin change between the two reads is not modelled.
- Network.ConnectWifi: `display_connecting_info`, `print` and the one-second sleep are left out; `waits` counts the sleeps.
- Network.BootMode: the `current_mode = "STA"` assignment in `main` (a local variable there) is not modelled.

=== FILE: cnc.dfy ===
/** The machine status read from the digital input (`get_cnc_status` in MicroPython/main.py). */
module Cnc {

  datatype Status = Online | Offline {
    /** The string the firmware uses for the status. */
    function Name(): string {
      match this
      case Online => "ONLINE"
      case Offline => "OFFLINE"
    }
  }

  /**
   `get_cnc_status`: ONLINE exactly when the pulled-down input pin reads 1; any
   other reading, including a floating or unexpected value, is OFFLINE.
   */
  function StatusOf(pin: int): (s: Status)
    ensures s == Online <==> pin == 1
    ensures s.Name() == "ONLINE" <==> pin == 1
  {
    if pin == 1 then Online else Offline
  }
}

=== FILE: config.dfy ===
/**
 The device configuration (`current_config` in MicroPython/main.py) and the rule
 by which a submitted form is applied to it in `handle_request`.
 */
module Config {
  import opened Wrappers
  import opened Text
  import opened Form

  /** The JSON values the configuration holds: strings and integers. */
  datatype Value = Str(s: string) | Int(n: int)

  /** `current_config`: a dictionary from setting names to values. */
  type Config = map<string, Value>

  /** The first-time configuration the firmware starts from. */
  const Defaults: Config := map[
    "ssid" := Str("nepiot"),
    "password" := Str("iotneptun"),
    "ip" := Str(""),
    "mqtt_broker" := Str("10.48.48.166"),
    "mqtt_port" := Int(1883),
    "mqtt_topic" := Str("cnc1/status"),
    "mqtt_interval" := Int(5)
  ]

  /** Python truthiness of `cfg.get(key)`: absent, `''` and `0` are false. */
  predicate Truthy(cfg: Config, key: string) {
    key in cfg &&
    match cfg[key]
    case Str(s) => |s| > 0
    case Int(n) => n != 0
  }

  /** Keys whose submitted value is coerced with `int()`. */
  predicate IsIntKey(key: string) {
    key == "mqtt_port" || key == "mqtt_interval"
  }

  /** Keys a blank submission may set to the empty string. */
  predicate MayBeCleared(key: string) {
    key == "ip" || key == "mqtt_broker"
  }

  /** The new value of a key already in the configuration after the form submits `raw` for it. */
  function Updated(key: string, current: Value, raw: string): Value {
    if key == "password" && Strip(raw) == "" then current
    else if Strip(raw) != "" || MayBeCleared(key) then
      if IsIntKey(key) then
        match ParseInt(raw)
        case Some(n) => Int(n)
        case None => current
      else Str(Strip(raw))
    else current
  }

  /** The loop over the submitted form's items, in dictionary order. */
  function Apply(cfg: Config, form: Entries): (r: Config)
    ensures r.Keys == cfg.Keys
    decreases |form|
  {
    if |form| == 0 then cfg
    else
      var key := form[0].0;
      var next := if key in cfg then cfg[key := Updated(key, cfg[key], form[0].1)] else cfg;
      Apply(next, form[1..])
  }

  /** The value of `key` after the whole form is applied, read off the form directly. */
  function Effect(cfg: Config, form: Entries, key: string): Value
    requires key in cfg
  {
    match Lookup(form, key)
    case None => cfg[key]
    case Some(raw) => Updated(key, cfg[key], raw)
  }

  /**
   Because every key of a dictionary occurs once, applying the items one after
   the other gives each key exactly the effect of its own submitted value.
   */
  lemma {:induction false} ApplyPointwise(cfg: Config, form: Entries)
    requires DistinctKeys(form)
    ensures forall key :: key in cfg ==> Apply(cfg, form)[key] == Effect(cfg, form, key)
    decreases |form|
  {
    if |form| > 0 {
      var key0 := form[0].0;
      var next := if key0 in cfg then cfg[key0 := Updated(key0, cfg[key0], form[0].1)] else cfg;
      ApplyPointwise(next, form[1..]);
      LookupKeySet(form[1..], key0);
    }
  }

  /** The configuration after submitting the query string `query` through `GET /?query`. */
  function Submit(cfg: Config, query: string): (r: Config)
    ensures r.Keys == cfg.Keys
  {
    Apply(cfg, ParseForm(query))
  }

  /**
   The rules of a configuration submission, key by key: no key is added; a key
   the form does not mention keeps its value; a blank password never replaces
   the stored one; `mqtt_port` and `mqtt_interval` change only to an integer that
   `int()` accepts; a blank value leaves any other key unchanged except `ip` and
   `mqtt_broker`, which it clears; every other value is stored stripped.
   */
  lemma SubmitRules(cfg: Config, query: string, key: string)
    requires key in cfg
    ensures Submit(cfg, query).Keys == cfg.Keys
    ensures var sent := Lookup(ParseForm(query), key);
      var r := Submit(cfg, query)[key];
      && (sent.None? ==> r == cfg[key])
      && (sent.Some? && key == "password" && IsBlank(sent.value) ==> r == cfg[key])
      && (sent.Some? && IsIntKey(key) ==>
            r == (match ParseInt(sent.value) case Some(n) => Int(n) case None => cfg[key]))
      && (sent.Some? && IsBlank(sent.value) && !MayBeCleared(key) ==> r == cfg[key])
      && (sent.Some? && IsBlank(sent.value) && MayBeCleared(key) ==> r == Str(""))
      && (sent.Some? && !IsBlank(sent.value) && !IsIntKey(key) ==> r == Str(Strip(sent.value)))
  {
    ApplyPointwise(cfg, ParseForm(query));
    var sent := Lookup(ParseForm(query), key);
    if sent.Some? {
      StripEmptyIffBlank(sent.value);
    }
  }

  /** A submission that names no key of the configuration changes nothing. */
  lemma SubmitUnknownKeys(cfg: Config, query: string)
    requires forall k :: k in cfg ==> Lookup(ParseForm(query), k).None?
    ensures Submit(cfg, query) == cfg
  {
    ApplyPointwise(cfg, ParseForm(query));
  }

  /** The copy served by `GET /config`: the password replaced by `''`. */
  function Redacted(cfg: Config): (r: Config)
    ensures r.Keys == cfg.Keys + {"password"}
    ensures r["password"] == Str("")
    ensures forall k :: k in cfg && k != "password" ==> r[k] == cfg[k]
  {
    cfg["password" := Str("")]
  }
}

=== FILE: dns.dfy ===
/**
 The captive DNS responder of `DNSServer.process_requests` (MicroPython/main.py):
 every query is rewritten byte for byte into a response that answers with the
 access point's own IPv4 address. The field layout follows RFC 1035: the header
 of section 4.1.1, the resource record of section 4.1.3 and the name-compression
 pointer of section 4.1.4. The UDP socket is outside the model.
 */
module Dns {
  import opened Wrappers
  import opened Text

  type Packet = seq<bv8>

  /** Python's `p[i:j]` for `0 <= i <= j`: bounds past the end are clamped. */
  function Slice(p: Packet, i: nat, j: nat): (r: Packet)
    requires i <= j
    ensures |r| == if j <= |p| then j - i else if i <= |p| then |p| - i else 0
    ensures forall k :: 0 <= k < |r| ==> r[k] == p[i + k]
  {
    if j <= |p| then p[i..j] else if i <= |p| then p[i..] else []
  }

  /** QR, RD and RA set; opcode, AA, TC, Z and RCODE zero. */
  const ResponseFlags: Packet := [0x81, 0x80]
  /** NSCOUNT and ARCOUNT, both zero. */
  const NoAuthorityNoAdditional: Packet := [0x00, 0x00, 0x00, 0x00]
  /** The fixed part of the answer: pointer to offset 12, TYPE A, CLASS IN, TTL 60, RDLENGTH 4. */
  const AnswerPrefix: Packet := [0xC0, 0x0C, 0x00, 0x01, 0x00, 0x01, 0x00, 0x00, 0x00, 0x3C, 0x00, 0x04]

  /** The response packet built from the query `query` and the address octets `ip`. */
  function BuildResponse(query: Packet, ip: Packet): Packet {
    var qd := Slice(query, 4, 6);
    Slice(query, 0, 2) + ResponseFlags + qd + qd + NoAuthorityNoAdditional
      + Slice(query, 12, if |query| >= 12 then |query| else 12) + AnswerPrefix + ip
  }

  /** The outcome of one call of `process_requests` that received `data`. */
  datatype Outcome =
    | NoReply          // an empty datagram: nothing is sent
    | Reply(packet: Packet)
    | Fault            // the address does not convert to bytes: the error escapes to the main loop

  /** `[int(p) for p in parts]` followed by `bytes(...)`: every part must be an integer in 0..255. */
  function Octets(parts: seq<string>): (r: Option<Packet>)
    ensures r.Some? ==> |r.value| == |parts|
  {
    if |parts| == 0 then Some([])
    else
      match ParseInt(parts[0])
      case None => None
      case Some(n) =>
        if 0 <= n < 256 then
          match Octets(parts[1..])
          case None => None
          case Some(rest) => Some([n as bv8] + rest)
        else None
  }

  /** The device address as the responder converts it: `self.ip_address.split('.')`. */
  function AddressOctets(address: string): Option<Packet> {
    Octets(Split(address, '.'))
  }

  /** `process_requests` after `recvfrom` returned `data`. */
  function Process(data: Packet, address: string): (r: Outcome)
    ensures r.NoReply? <==> |data| == 0
    ensures r.Fault? <==> |data| > 0 && AddressOctets(address).None?
  {
    if |data| == 0 then NoReply
    else
      match AddressOctets(address)
      case None => Fault
      case Some(ip) => Reply(BuildResponse(data, ip))
  }

  // ---------------------------------------------------------------------------
  // An independent reading of the packet, field by field, as RFC 1035 lays it out.

  /** A 16-bit big-endian field. */
  function U16(p: Packet, i: nat): int
    requires i + 2 <= |p|
  {
    p[i] as int * 256 + p[i + 1] as int
  }

  /** A 32-bit big-endian field. */
  function U32(p: Packet, i: nat): int
    requires i + 4 <= |p|
  {
    U16(p, i) * 65536 + U16(p, i + 2)
  }

  /** The twelve-byte header of section 4.1.1 of RFC 1035. */
  datatype Header = Header(id: int, flags: int, qdCount: int, anCount: int, nsCount: int, arCount: int)

  function DecodeHeader(p: Packet): Header
    requires |p| >= 12
  {
    Header(U16(p, 0), U16(p, 2), U16(p, 4), U16(p, 6), U16(p, 8), U16(p, 10))
  }

  /** The flag bits of the header's second word. */
  datatype Flags = Flags(qr: int, opcode: int, aa: int, tc: int, rd: int, ra: int, z: int, rcode: int)

  function DecodeFlags(w: int): Flags
    requires 0 <= w < 65536
  {
    Flags(w / 32768, (w / 2048) % 16, (w / 1024) % 2, (w / 512) % 2, (w / 256) % 2, (w / 128) % 2, (w / 16) % 8, w % 16)
  }

  /** A resource record (section 4.1.3) whose owner name is a compression pointer (section 4.1.4). */
  datatype Record = Record(nameOffset: int, rtype: int, rclass: int, ttl: int, rdata: Packet)

  /** Reads a pointer-named resource record starting at byte `at`; `None` if there is none. */
  function DecodeRecord(p: Packet, at: nat): Option<Record> {
    if at + 12 <= |p| && p[at] as int >= 0xC0 then
      var rdLength := U16(p, at + 10);
      if at + 12 + rdLength <= |p| then
        Some(Record((p[at] as int - 0xC0) * 256 + p[at + 1] as int,
                    U16(p, at + 2), U16(p, at + 4), U32(p, at + 6),
                    p[at + 12..at + 12 + rdLength]))
      else None
    else None
  }

  // ---------------------------------------------------------------------------
  // Properties

  /** The layout of the response to a query holding at least a full header. */
  lemma ResponseLayout(query: Packet, ip: Packet)
    requires |query| >= 12
    ensures var r := BuildResponse(query, ip);
      && |r| == |query| + 12 + |ip|
      && r[..2] == query[..2]
      && r[2..4] == [0x81, 0x80]
      && r[4..6] == query[4..6] && r[6..8] == query[4..6]
      && r[8..12] == [0, 0, 0, 0]
      && r[12..|query|] == query[12..]
      && r[|query|..] == AnswerPrefix + ip
  {
    var r := BuildResponse(query, ip);
    assert Slice(query, 0, 2) == query[..2];
    assert Slice(query, 4, 6) == query[4..6];
    assert Slice(query, 12, |query|) == query[12..];
  }

  /**
   Read back as RFC 1035 defines it, the response to a query with a full header
   keeps the query's ID, is a recursion-available answer with no error, claims
   as many answers as the query had questions, and no authority or additional
   records.
   */
  lemma ResponseHeader(query: Packet, ip: Packet)
    requires |query| >= 12
    ensures var h := DecodeHeader(BuildResponse(query, ip));
      && h.id == DecodeHeader(query).id
      && h.flags == 0x8180
      && h.qdCount == DecodeHeader(query).qdCount
      && h.anCount == DecodeHeader(query).qdCount
      && h.nsCount == 0 && h.arCount == 0
    ensures DecodeFlags(0x8180) == Flags(1, 0, 0, 0, 1, 1, 0, 0)
  {
    ResponseLayout(query, ip);
    var r := BuildResponse(query, ip);
    assert r[0] == query[0] && r[1] == query[1] by { assert r[..2] == query[..2]; }
    assert r[2] == 0x81 && r[3] == 0x80 by { assert r[2..4] == [0x81, 0x80]; }
    assert r[4] == query[4] && r[5] == query[5] by { assert r[4..6] == query[4..6]; }
    assert r[6] == query[4] && r[7] == query[5] by { assert r[6..8] == query[4..6]; }
    assert r[8] == 0 && r[9] == 0 && r[10] == 0 && r[11] == 0 by { assert r[8..12] == [0, 0, 0, 0]; }
  }

  /**
   For a four-byte address, the record appended after the echoed query is an A
   record of class IN whose owner name points at offset 12, where the question's
   name starts, with a TTL of 60 seconds and the device's address as its data;
   the response is exactly 16 bytes longer than the query.
   */
  lemma ResponseAnswer(query: Packet, ip: Packet)
    requires |query| >= 12 && |ip| == 4
    ensures |BuildResponse(query, ip)| == |query| + 16
    ensures DecodeRecord(BuildResponse(query, ip), |query|) == Some(Record(12, 1, 1, 60, ip))
  {
    ResponseLayout(query, ip);
    var r := BuildResponse(query, ip);
    var n := |query|;
    var tail := r[n..];
    assert tail == AnswerPrefix + ip;
    assert forall k :: 0 <= k < 16 ==> r[n + k] == tail[k];
    assert r[n] == 0xC0 && r[n + 1] == 0x0C;
    assert U16(r, n + 2) == 1 && U16(r, n + 4) == 1;
    assert U16(r, n + 6) == 0 && U16(r, n + 8) == 60;
    assert U16(r, n + 10) == 4;
    assert r[n + 12..n + 16] == ip;
  }

  /** Decimal dotted rendering of address octets, as the network interface reports it. */
  function Dotted(octets: Packet): string {
    Join(DottedParts(octets), '.')
  }

  function DottedParts(octets: Packet): (parts: seq<string>)
    ensures |parts| == |octets|
    ensures forall i :: 0 <= i < |parts| ==> parts[i] == ShowInt(octets[i] as int)
  {
    if |octets| == 0 then [] else [ShowInt(octets[0] as int)] + DottedParts(octets[1..])
  }

  lemma ByteRoundTrip(b: bv8)
    ensures (b as int) as bv8 == b
  {
  }

  lemma OctetsCons(parts: seq<string>, b: bv8, rest: Packet)
    requires |parts| > 0 && ParseInt(parts[0]) == Some(b as int) && Octets(parts[1..]) == Some(rest)
    ensures Octets(parts) == Some([b] + rest)
  {
    ByteRoundTrip(b);
  }

  lemma {:induction false} OctetsOfShown(octets: Packet)
    ensures Octets(DottedParts(octets)) == Some(octets)
  {
    if |octets| > 0 {
      var parts := DottedParts(octets);
      ParseShowInt(octets[0] as int);
      assert parts[1..] == DottedParts(octets[1..]);
      OctetsOfShown(octets[1..]);
      OctetsCons(parts, octets[0], octets[1..]);
      assert [octets[0]] + octets[1..] == octets;
    }
  }

  /**
   The responder's address conversion inverts the dotted rendering: the address
   `a.b.c.d` is answered with exactly the octets `a, b, c, d`, so any non-empty
   query gets a reply, never the fault.
   */
  lemma AddressRoundTrip(query: Packet, octets: Packet)
    requires |octets| >= 1 && |query| > 0
    ensures AddressOctets(Dotted(octets)) == Some(octets)
    ensures Process(query, Dotted(octets)) == Reply(BuildResponse(query, octets))
  {
    var parts := DottedParts(octets);
    forall i | 0 <= i < |parts| ensures '.' !in parts[i] {
      var d := ShowNat(octets[i] as int);
      assert parts[i] == d;
      assert forall k :: 0 <= k < |d| ==> IsDigit(d[k]);
    }
    SplitJoin(parts, '.');
    OctetsOfShown(octets);
  }
}

=== FILE: form.dfy ===
/**
 `parse_form_data` (MicroPython/main.py): a query string `k=v&k=v...` becomes a
 dictionary. Pieces are separated by `&`; a piece without `=` is skipped; the key
 is everything before the first `=`; the value has `+` and then `%20` replaced by
 a space and undergoes no other decoding; a later duplicate key overwrites the
 value of an earlier one, keeping the key's original position (Python `dict`).
 */
module Form {
  import opened Wrappers
  import opened Text

  /** A Python `dict` from strings to strings, in insertion order. */
  type Entries = seq<(string, string)>

  function Lookup(f: Entries, k: string): Option<string> {
    if |f| == 0 then None
    else if f[0].0 == k then Some(f[0].1)
    else Lookup(f[1..], k)
  }

  /** The keys of the dictionary. */
  function KeySet(f: Entries): set<string> {
    if |f| == 0 then {} else {f[0].0} + KeySet(f[1..])
  }

  /** Every key occurs once. */
  predicate DistinctKeys(f: Entries) {
    |f| == 0 || (f[0].0 !in KeySet(f[1..]) && DistinctKeys(f[1..]))
  }

  /** A key is found exactly when it is one of the keys. */
  lemma {:induction false} LookupKeySet(f: Entries, k: string)
    ensures Lookup(f, k).Some? <==> k in KeySet(f)
  {
    if |f| > 0 && f[0].0 != k {
      LookupKeySet(f[1..], k);
    }
  }

  /** `d[k] = v`: replaces the value in place when `k` is present, appends otherwise. */
  function Put(f: Entries, k: string, v: string): (r: Entries)
    ensures KeySet(r) == KeySet(f) + {k}
    ensures DistinctKeys(f) ==> DistinctKeys(r)
    ensures Lookup(r, k) == Some(v)
    ensures forall k' :: k' != k ==> Lookup(r, k') == Lookup(f, k')
    ensures |r| == if k in KeySet(f) then |f| else |f| + 1
  {
    if |f| == 0 then [(k, v)]
    else if f[0].0 == k then
      var r := [(k, v)] + f[1..];
      assert r[1..] == f[1..];
      r
    else
      var tail := Put(f[1..], k, v);
      var r := [f[0]] + tail;
      assert r[1..] == tail;
      r
  }

  /** `value.replace('+', ' ')`. */
  function PlusToSpace(s: string): (r: string)
    ensures |r| == |s| && '+' !in r
    ensures forall i :: 0 <= i < |s| ==> r[i] == if s[i] == '+' then ' ' else s[i]
    ensures forall c :: c != ' ' && c in r ==> c in s
  {
    if |s| == 0 then ""
    else
      var c := if s[0] == '+' then ' ' else s[0];
      [c] + PlusToSpace(s[1..])
  }

  /** The three characters `%20` start at position `i` of `s`. */
  predicate EscapeAt(s: string, i: nat) {
    i + 3 <= |s| && s[i] == '%' && s[i + 1] == '2' && s[i + 2] == '0'
  }

  /** `value.replace('%20', ' ')`: occurrences are replaced left to right without overlap. */
  function UnescapeSpaces(s: string): string
  {
    if EscapeAt(s, 0) then " " + UnescapeSpaces(s[3..])
    else if |s| == 0 then ""
    else [s[0]] + UnescapeSpaces(s[1..])
  }

  /** The value decoding applied by `parse_form_data`. */
  function DecodeValue(v: string): string {
    UnescapeSpaces(PlusToSpace(v))
  }

  lemma {:induction false} UnescapeHead(s: string)
    ensures |s| == 0 <==> |UnescapeSpaces(s)| == 0
    ensures |s| > 0 ==> UnescapeSpaces(s)[0] == if EscapeAt(s, 0) then ' ' else s[0]
  {
  }

  /** After the replacement no `%20` is left, not even one formed across a replaced run. */
  lemma {:induction false} UnescapeLeavesNoEscape(s: string)
    ensures forall i: nat :: !EscapeAt(UnescapeSpaces(s), i)
    decreases |s|
  {
    var r := UnescapeSpaces(s);
    if EscapeAt(s, 0) {
      UnescapeLeavesNoEscape(s[3..]);
      var t := UnescapeSpaces(s[3..]);
      forall i: nat ensures !EscapeAt(r, i) {
        if i > 0 { assert EscapeAt(r, i) ==> EscapeAt(t, i - 1); }
      }
    } else if |s| > 0 {
      UnescapeLeavesNoEscape(s[1..]);
      var t := UnescapeSpaces(s[1..]);
      assert r == [s[0]] + t;
      forall i: nat ensures !EscapeAt(r, i) {
        if i > 0 {
          assert EscapeAt(r, i) ==> EscapeAt(t, i - 1);
        } else if EscapeAt(r, 0) {
          UnescapeHead(s[1..]);
          assert !EscapeAt(s[1..], 0);
          assert t == [s[1]] + UnescapeSpaces(s[2..]);
          UnescapeHead(s[2..]);
          assert false;
        }
      }
    }
  }

  /** The replacement introduces no character other than the space. */
  lemma {:induction false} UnescapeKeepsAlphabet(s: string, c: char)
    requires c != ' ' && c in UnescapeSpaces(s)
    ensures c in s
    decreases |s|
  {
    if EscapeAt(s, 0) {
      UnescapeKeepsAlphabet(s[3..], c);
    } else if |s| > 0 {
      if c != s[0] {
        UnescapeKeepsAlphabet(s[1..], c);
      }
    }
  }

  /** Dropping the first character moves every `%20` one place to the left. */
  lemma EscapeShift(s: string, i: nat)
    requires |s| > 0
    ensures EscapeAt(s[1..], i) <==> EscapeAt(s, i + 1)
  {
  }

  /** A string in which no `%20` starts is left alone by the `%20` replacement. */
  lemma {:induction false} UnescapeClean(s: string)
    requires forall i: nat :: !EscapeAt(s, i)
    ensures UnescapeSpaces(s) == s
  {
    if |s| > 0 {
      assert !EscapeAt(s, 0);
      forall i: nat ensures !EscapeAt(s[1..], i) {
        EscapeShift(s, i);
      }
      UnescapeClean(s[1..]);
      assert s == [s[0]] + s[1..];
    }
  }

  /**
   The replacement works left to right: when no `%20` starts in `a`, the first
   one of `a + "%20" + b` is the one after `a`, and the rest is replaced in turn.
   */
  lemma {:induction false} UnescapeFirst(a: string, b: string)
    requires forall i: nat :: !EscapeAt(a, i)
    ensures UnescapeSpaces(a + "%20" + b) == a + " " + UnescapeSpaces(b)
    decreases |a|
  {
    var s := a + "%20" + b;
    if |a| == 0 {
      assert s[3..] == b;
    } else {
      assert s[1..] == a[1..] + "%20" + b;
      assert !EscapeAt(s, 0) by {
        if |a| >= 3 {
          assert !EscapeAt(a, 0);
          assert s[..3] == a[..3];
        } else {
          assert s[|a|] == '%';
        }
      }
      forall i: nat ensures !EscapeAt(a[1..], i) {
        EscapeShift(a, i);
      }
      UnescapeFirst(a[1..], b);
      assert a + " " + UnescapeSpaces(b) == [a[0]] + (a[1..] + " " + UnescapeSpaces(b));
    }
  }

  lemma {:induction false} PlusToSpaceClean(s: string)
    requires '+' !in s
    ensures PlusToSpace(s) == s
  {
    if |s| > 0 {
      PlusToSpaceClean(s[1..]);
      assert s == [s[0]] + s[1..];
    }
  }

  /**
   Value decoding: no `+` and no `%20` survive, no character other than the space
   is introduced, and a value holding no `+` and no `%20` comes back unchanged.
   */
  lemma DecodeValueSpec(v: string)
    ensures '+' !in DecodeValue(v)
    ensures forall i: nat :: !EscapeAt(DecodeValue(v), i)
    ensures forall c :: c != ' ' && c in DecodeValue(v) ==> c in v
    ensures '+' !in v && (forall i: nat :: !EscapeAt(v, i)) ==> DecodeValue(v) == v
  {
    var p := PlusToSpace(v);
    UnescapeLeavesNoEscape(p);
    if '+' in DecodeValue(v) {
      UnescapeKeepsAlphabet(p, '+');
    }
    forall c | c != ' ' && c in DecodeValue(v) ensures c in v {
      UnescapeKeepsAlphabet(p, c);
    }
    if '+' !in v && (forall i: nat :: !EscapeAt(v, i)) {
      PlusToSpaceClean(v);
      UnescapeClean(v);
    }
  }

  /** The piece `p` carries an `=` and its key (text before the first `=`) is `k`. */
  predicate KeyIs(p: string, k: string) {
    var kv := SplitOnce(p, '=');
    kv.Some? && kv.value.0 == k
  }

  /** The decoded value of a piece that carries an `=`. */
  function ValueOf(p: string): string
    requires '=' in p
  {
    DecodeValue(SplitOnce(p, '=').value.1)
  }

  /** The loop of `parse_form_data` over the pieces, in order. */
  function Collect(pieces: seq<string>): (f: Entries)
    ensures DistinctKeys(f)
    ensures forall k :: k in KeySet(f) ==> '=' !in k
    decreases |pieces|
  {
    if |pieces| == 0 then []
    else
      var f := Collect(pieces[..|pieces| - 1]);
      match SplitOnce(pieces[|pieces| - 1], '=')
      case None => f
      case Some(kv) =>
        Put(f, kv.0, DecodeValue(kv.1))
  }

  /** `parse_form_data(data)`. */
  function ParseForm(data: string): (f: Entries)
    ensures DistinctKeys(f)
    ensures forall k :: k in KeySet(f) ==> '=' !in k
  {
    Collect(Split(data, '&'))
  }

  /** When the LAST piece keyed `k` is piece `i`, the dictionary maps `k` to that piece's value. */
  lemma {:induction false} CollectLastWins(pieces: seq<string>, i: nat, k: string)
    requires i < |pieces| && KeyIs(pieces[i], k)
    requires forall j :: i < j < |pieces| ==> !KeyIs(pieces[j], k)
    ensures Lookup(Collect(pieces), k) == Some(ValueOf(pieces[i]))
    decreases |pieces|
  {
    var n := |pieces| - 1;
    var init := pieces[..n];
    if i < n {
      assert !KeyIs(pieces[n], k);
      CollectLastWins(init, i, k);
    }
  }

  /** A key that no piece carries is absent from the dictionary. */
  lemma {:induction false} CollectAbsent(pieces: seq<string>, k: string)
    requires forall j :: 0 <= j < |pieces| ==> !KeyIs(pieces[j], k)
    ensures Lookup(Collect(pieces), k) == None
    decreases |pieces|
  {
    if |pieces| > 0 {
      var n := |pieces| - 1;
      assert !KeyIs(pieces[n], k);
      CollectAbsent(pieces[..n], k);
    }
  }

  /** `parse_form_data` has no entry for a key that no `&`-piece with an `=` carries. */
  lemma ParseFormAbsent(data: string, k: string)
    requires forall p :: p in Split(data, '&') ==> !KeyIs(p, k)
    ensures Lookup(ParseForm(data), k) == None
  {
    CollectAbsent(Split(data, '&'), k);
  }

  /**
   `parse_form_data` maps a key to the decoded value of the LAST `&`-piece that
   carries an `=` and that key: a later duplicate overwrites an earlier one.
   */
  lemma ParseFormLastWins(data: string, i: nat, k: string)
    requires i < |Split(data, '&')| && KeyIs(Split(data, '&')[i], k)
    requires forall j :: i < j < |Split(data, '&')| ==> !KeyIs(Split(data, '&')[j], k)
    ensures Lookup(ParseForm(data), k) == Some(ValueOf(Split(data, '&')[i]))
  {
    CollectLastWins(Split(data, '&'), i, k);
  }
}

=== FILE: http.dfy ===
/**
 The decisions of `handle_request` (MicroPython/main.py): parse the request line,
 test the path against the known routes, apply the captive-portal redirect in
 access-point mode, and dispatch GET requests. Socket I/O, the JSON encoder, the
 SSID scan and the streaming of `index.html` stay outside: the outcome says which
 reply the firmware produces, and `Head` gives the literal text it sends first.
 */
module Http {
  import opened Wrappers
  import opened Text
  import opened Form
  import opened Config
  import opened Cnc
  import opened Network

  datatype RequestLine = RequestLine(verb: string, path: string)

  /** What `handle_request` sends for one connection. */
  datatype Response =
    | NoResponse                            // the connection is closed with nothing written
    | Redirect(location: string)            // 302 captive-portal trap
    | ScanReply(ssid: string)               // JSON `{found: ...}` for the SSID asked about
    | ConfigReply(shown: Config)            // JSON of the configuration copy
    | StatusReply(status: Status, gpio: int)  // JSON `{status, gpio_value}`
    | Saved(saved: Config)                  // confirmation page, then the device reboots
    | IndexPage                             // the configuration page streamed from flash
    | NotFound                              // 404

  /** The reply together with the configuration held in memory afterwards. */
  datatype Exchange = Exchange(response: Response, stored: Config)

  /** `request.split('\n')[0]`: everything up to the first newline, or the whole request. */
  function FirstLine(request: string): (line: string)
    ensures '\n' !in line && StartsWith(request, line)
    ensures line == request || (|line| < |request| && request[|line|] == '\n')
  {
    match SplitOnce(request, '\n')
    case None => request
    case Some(p) =>
      assert request[..|p.0|] == p.0;
      assert request[|p.0|] == '\n';
      p.0
  }

  /**
   An empty request, or a first line that `split(' ', 2)` cannot unpack into
   method, path and version, yields `None`: the firmware returns silently.
   */
  function ParseRequestLine(request: string): Option<RequestLine> {
    if request == "" then None
    else
      match SplitOnce(FirstLine(request), ' ')
      case None => None
      case Some(mr) =>
        match SplitOnce(mr.1, ' ')
        case None => None
        case Some(pv) => Some(RequestLine(mr.0, pv.0))
  }

  const KnownPaths: seq<string> := ["/", "/status", "/scan", "/config"]

  /** The loop over `known_paths`: `path == p or path.startswith(p + "?")` for some `p` in `ps`. */
  function MatchesAny(path: string, ps: seq<string>): bool {
    if |ps| == 0 then false
    else if path == ps[0] || StartsWith(path, ps[0] + "?") then true
    else MatchesAny(path, ps[1..])
  }

  predicate IsKnownPath(path: string) {
    MatchesAny(path, KnownPaths)
  }

  /** The part of the path after the first `?`, or `""` (`path.split("?", 1)[1]`). */
  function Query(path: string): string {
    match SplitOnce(path, '?')
    case None => ""
    case Some(p) => p.1
  }

  /** The paths the GET chain has a branch for. */
  predicate Routed(path: string) {
    StartsWith(path, "/scan") || path == "/config" || path == "/status" || path == "/" || StartsWith(path, "/?")
  }

  /** The GET dispatch, in the order of the source's `if`/`elif` chain. */
  function RouteGet(cfg: Config, pin: int, path: string): (r: Response)
    ensures !r.NoResponse? && !r.Redirect?
    ensures r.NotFound? <==> !Routed(path)
    ensures r.ConfigReply? ==> r.shown == Redacted(cfg)
    ensures path == "/status" ==> r == StatusReply(StatusOf(pin), pin)
    ensures path == "/" ==> r == IndexPage
    ensures r.Saved? ==> StartsWith(path, "/?") && r.saved == Submit(cfg, Query(path))
  {
    assert path == "/status" ==> !StartsWith(path, "/scan") by {
      if path == "/status" {
        DiffersAt(path, "/scan", 2);
      }
    }
    if StartsWith(path, "/scan") then
      ScanReply(Lookup(ParseForm(Query(path)), "ssid").GetOr(""))
    else if path == "/config" then ConfigReply(Redacted(cfg))
    else if path == "/status" then StatusReply(StatusOf(pin), pin)
    else if path == "/" || StartsWith(path, "/?") then
      if '?' in path then Saved(Submit(cfg, Query(path))) else IndexPage
    else NotFound
  }

  /**
   The reply of `handle_request` to a well-formed request line, with the firmware
   in `mode`, the access point's own address `apAddress`, the configuration `cfg`
   and the status pin reading `pin`: the captive-portal redirect comes before any
   method check, only GET is answered, and only a saved form changes the
   configuration.
   */
  function Respond(mode: Mode, apAddress: string, cfg: Config, pin: int, line: RequestLine): (x: Exchange)
    ensures x.stored == if x.response.Saved? then x.response.saved else cfg
    ensures x.response.NoResponse? <==> line.verb != "GET" && (mode.Station? || IsKnownPath(line.path))
  {
    if mode == AccessPoint && !IsKnownPath(line.path) then
      Exchange(Redirect("http://" + apAddress), cfg)
    else if line.verb == "GET" then
      var r := RouteGet(cfg, pin, line.path);
      Exchange(r, if r.Saved? then r.saved else cfg)
    else Exchange(NoResponse, cfg)
  }

  /** `handle_request` for one received request text `request`. */
  function Handle(mode: Mode, apAddress: string, cfg: Config, pin: int, request: string): (x: Exchange)
    ensures x.stored == if x.response.Saved? then x.response.saved else cfg
  {
    match ParseRequestLine(request)
    case None => Exchange(NoResponse, cfg)
    case Some(line) => Respond(mode, apAddress, cfg, pin, line)
  }

  const OkLine: string := "HTTP/1.1 200 OK\r\n"
  const FoundLine: string := "HTTP/1.1 302 Found\r\n"
  const NotFoundLine: string := "HTTP/1.1 404 Not Found\r\n"

  /** The three status lines all start with the protocol version. */
  lemma StatusLinesVersion()
    ensures StartsWith(OkLine, "HTTP/1.1 ") && StartsWith(FoundLine, "HTTP/1.1 ")
      && StartsWith(NotFoundLine, "HTTP/1.1 ")
  {
    StartsWithAppend("HTTP/1.1 ", "200 OK\r\n");
    StartsWithAppend("HTTP/1.1 ", "302 Found\r\n");
    StartsWithAppend("HTTP/1.1 ", "404 Not Found\r\n");
  }

  /** The status line of a reply. */
  function StatusLine(r: Response): string
    requires !r.NoResponse?
  {
    match r
    case Redirect(_) => FoundLine
    case NotFound => NotFoundLine
    case _ => OkLine
  }

  /** What the firmware writes after the status line in the same `send`. */
  function AfterStatus(r: Response): string
    requires !r.NoResponse?
  {
    match r
    case Redirect(loc) => "Location: " + loc + "\r\n\r\n"
    case ScanReply(_) => "Content-Type: application/json\r\n\r\n"
    case ConfigReply(_) => "Content-Type: application/json\r\n\r\n"
    case StatusReply(_, _) => "Content-Type: application/json\r\n\r\n"
    case Saved(_) =>
      "\r\n<html><body><h1>Configuration Saved!</h1><p>Device will reboot...</p></body></html>"
    case IndexPage => "Content-type: text/html\r\n\r\n"
    case NotFound => "\r\n<h1>404</h1>"
  }

  /**
   The literal bytes the firmware writes first for each reply (JSON bodies and
   the page follow): nothing at all for `NoResponse`; otherwise a `302 Found`
   status line with the `Location` header for the captive-portal redirect, a
   `404 Not Found` status line for an unrouted path, and `200 OK` for every
   other reply.
   */
  function Head(r: Response): (h: string)
    ensures h == "" <==> r.NoResponse?
    ensures !r.NoResponse? ==> StartsWith(h, "HTTP/1.1 ")
    ensures r.Redirect? ==>
      (StartsWith(h, FoundLine) && StartsWith(h[|FoundLine|..], "Location: " + r.location + "\r\n"))
    ensures r.NotFound? ==> StartsWith(h, NotFoundLine)
    ensures !r.NoResponse? && !r.Redirect? && !r.NotFound? ==> StartsWith(h, OkLine)
  {
    if r.NoResponse? then ""
    else
      var line := StatusLine(r);
      assert r.NotFound? ==> line == NotFoundLine;
      assert r.Redirect? ==> line == FoundLine;
      assert !r.Redirect? && !r.NotFound? ==> line == OkLine;
      var h := line + AfterStatus(r);
      assert StartsWith(h, line) && h[|line|..] == AfterStatus(r) by {
        StartsWithAppend(line, AfterStatus(r));
      }
      assert StartsWith(h, "HTTP/1.1 ") by {
        StatusLinesVersion();
        assert StartsWith(line, "HTTP/1.1 ");
        StartsWithTrans(h, line, "HTTP/1.1 ");
      }
      assert r.Redirect? ==> StartsWith(AfterStatus(r), "Location: " + r.location + "\r\n") by {
        if r.Redirect? {
          StartsWithAppend("Location: " + r.location + "\r\n", "\r\n");
        }
      }
      h
  }

  // ---------------------------------------------------------------------------
  // Properties

  /** A path is known iff it is one of the four routes, or one of them followed by `?`. */
  lemma KnownPathIff(path: string)
    ensures IsKnownPath(path) <==>
      || path == "/" || StartsWith(path, "/?")
      || path == "/status" || StartsWith(path, "/status?")
      || path == "/scan" || StartsWith(path, "/scan?")
      || path == "/config" || StartsWith(path, "/config?")
  {
    var ps := KnownPaths;
    assert ps[0] + "?" == "/?";
    assert ps[1..][0] + "?" == "/status?";
    assert ps[2..][0] + "?" == "/scan?";
    assert ps[3..][0] + "?" == "/config?";
    assert ps[1..][1..] == ps[2..];
    assert ps[2..][1..] == ps[3..];
    assert ps[3..][1..] == [];
    assert MatchesAny(path, ps) == (path == "/" || StartsWith(path, "/?") || MatchesAny(path, ps[1..]));
    assert MatchesAny(path, ps[1..]) == (path == "/status" || StartsWith(path, "/status?") || MatchesAny(path, ps[2..]));
    assert MatchesAny(path, ps[2..]) == (path == "/scan" || StartsWith(path, "/scan?") || MatchesAny(path, ps[3..]));
    assert MatchesAny(path, ps[3..]) == (path == "/config" || StartsWith(path, "/config?"));
  }

  /** The request is dropped exactly when its first line holds fewer than two spaces. */
  lemma ParseRequestLineNone(request: string)
    ensures ParseRequestLine(request).None? <==> Count(FirstLine(request), ' ') < 2
  {
    var line := FirstLine(request);
    if request == "" {
      assert line == "";
    } else {
      CountSplitOnce(line, ' ');
      match SplitOnce(line, ' ')
      case None =>
      case Some(mr) => CountSplitOnce(mr.1, ' ');
    }
  }

  /** A malformed or empty request gets no reply and changes nothing. */
  lemma MalformedDropped(mode: Mode, apAddress: string, cfg: Config, pin: int, request: string)
    requires Count(FirstLine(request), ' ') < 2
    ensures Handle(mode, apAddress, cfg, pin, request) == Exchange(NoResponse, cfg)
    ensures Head(Handle(mode, apAddress, cfg, pin, request).response) == ""
  {
    ParseRequestLineNone(request);
  }

  /**
   The captive-portal trap: a well-formed request gets the 302 to
   `http://<access point address>` exactly when the firmware is in access-point
   mode and the path is not known, whatever the method; the stored configuration
   is left alone.
   */
  lemma CaptiveRedirect(mode: Mode, apAddress: string, cfg: Config, pin: int, request: string)
    ensures var x := Handle(mode, apAddress, cfg, pin, request);
      x.response.Redirect? <==>
        ParseRequestLine(request).Some? && mode == AccessPoint && !IsKnownPath(ParseRequestLine(request).value.path)
    ensures var x := Handle(mode, apAddress, cfg, pin, request);
      x.response.Redirect? ==> x.response.location == "http://" + apAddress && x.stored == cfg
  {
    match ParseRequestLine(request)
    case None =>
    case Some(line) =>
      if !(mode == AccessPoint && !IsKnownPath(line.path)) && line.verb == "GET" {
        assert !RouteGet(cfg, pin, line.path).Redirect?;
      }
  }

  /**
   404 is sent exactly for a well-formed GET whose path no branch handles and that
   the captive portal did not catch; in station mode that is every such GET.
   */
  lemma NotFoundIff(mode: Mode, apAddress: string, cfg: Config, pin: int, request: string)
    ensures var x := Handle(mode, apAddress, cfg, pin, request);
      var line := ParseRequestLine(request);
      x.response.NotFound? <==>
        line.Some? && line.value.verb == "GET" && !Routed(line.value.path)
        && (mode == Station || IsKnownPath(line.value.path))
  {
  }

  /** A request that is not a GET and is not caught by the captive portal gets no reply. */
  lemma NonGetSilent(mode: Mode, apAddress: string, cfg: Config, pin: int, request: string)
    requires ParseRequestLine(request).Some?
    requires ParseRequestLine(request).value.verb != "GET"
    requires mode == Station || IsKnownPath(ParseRequestLine(request).value.path)
    ensures Handle(mode, apAddress, cfg, pin, request) == Exchange(NoResponse, cfg)
  {
  }

  /**
   The configuration is sent only as a copy whose password is `''`, and sending
   it does not touch the stored configuration.
   */
  lemma ConfigReplyRedacted(mode: Mode, apAddress: string, cfg: Config, pin: int, request: string)
    ensures var x := Handle(mode, apAddress, cfg, pin, request);
      x.response.ConfigReply? ==>
        x.stored == cfg && x.response.shown["password"] == Str("")
        && x.response.shown.Keys == cfg.Keys + {"password"}
        && forall k :: k in cfg && k != "password" ==> x.response.shown[k] == cfg[k]
  {
    var line := ParseRequestLine(request);
    if line.Some? && !(mode == AccessPoint && !IsKnownPath(line.value.path)) && line.value.verb == "GET" {
      var r := RouteGet(cfg, pin, line.value.path);
    }
  }

  /**
   The only reply that changes the stored configuration is the save-and-reboot
   one for `GET /?<form>`, which stores the form applied to the old configuration.
   */
  lemma OnlySaveChangesConfig(mode: Mode, apAddress: string, cfg: Config, pin: int, request: string)
    ensures var x := Handle(mode, apAddress, cfg, pin, request);
      x.stored != cfg ==>
        var path := ParseRequestLine(request).value.path;
        && x.response == Saved(x.stored)
        && ParseRequestLine(request).value.verb == "GET"
        && StartsWith(path, "/?")
        && x.stored == Submit(cfg, Query(path))
  {
    match ParseRequestLine(request)
    case None =>
    case Some(line) =>
      if !(mode == AccessPoint && !IsKnownPath(line.path)) && line.verb == "GET" {
        var r := RouteGet(cfg, pin, line.path);
      }
  }

  /**
   A request whose first line is `<verb> <path> <version>` is parsed into that
   verb and path, whatever header lines follow it (`rest` is empty or starts a
   new line).
   */
  lemma RequestLineOf(verb: string, path: string, version: string, rest: string)
    requires ' ' !in verb && ' ' !in path && '\n' !in verb + " " + path + " " + version
    requires rest == [] || rest[0] == '\n'
    ensures ParseRequestLine(verb + " " + path + " " + version + rest) == Some(RequestLine(verb, path))
  {
    var line := verb + " " + path + " " + version;
    var request := line + rest;
    assert FirstLine(request) == line by {
      if rest == [] {
        assert request == line;
        assert SplitOnce(request, '\n') == None;
      } else {
        assert request == line + ['\n'] + rest[1..];
        SplitOnceAt(line, '\n', rest[1..]);
      }
    }
    assert line == verb + [' '] + (path + " " + version);
    SplitOnceAt(verb, ' ', path + " " + version);
    assert path + " " + version == path + [' '] + version;
    SplitOnceAt(path, ' ', version);
  }

  /** `parse_form_data("")` is empty, so a query-less scan asks about the SSID `''`. */
  lemma EmptyQueryScan()
    ensures Lookup(ParseForm(""), "ssid").GetOr("") == ""
  {
    assert Split("", '&') == [""];
    assert SplitOnce("", '=') == None;
    assert Collect([""]) == Collect([""][..0]);
  }

  /** Two strings that differ at position `i` neither are equal nor is one a prefix of the other. */
  lemma DiffersAt(s: string, p: string, i: nat)
    requires i < |s| && i < |p| && s[i] != p[i]
    ensures s != p && !StartsWith(s, p)
  {
  }

  /**
   In station mode every GET whose path starts with `/scan` reaches the scan
   handler, because `/scan` is matched by prefix, and asks about the `ssid`
   field of its query (`''` without one); in access-point mode such a path
   that is not known is redirected instead.
   */
  lemma ScanPrefixReachesScan(apAddress: string, cfg: Config, pin: int, path: string)
    requires StartsWith(path, "/scan")
    ensures Respond(Station, apAddress, cfg, pin, RequestLine("GET", path)).response
      == ScanReply(Lookup(ParseForm(Query(path)), "ssid").GetOr(""))
    ensures !IsKnownPath(path) ==>
      Respond(AccessPoint, apAddress, cfg, pin, RequestLine("GET", path)).response == Redirect("http://" + apAddress)
  {
  }

  /** The query `ssid=<name>` of a clean name decodes to that name. */
  lemma SsidQuery(name: string)
    requires Clean(name)
    ensures Lookup(ParseForm(Field("ssid", name)), "ssid") == Some(name)
  {
    var query := Field("ssid", name);
    assert Split(query, '&') == [query] by {
      assert '&' !in query;
      SplitNoSeparator(query, '&');
    }
    PieceValue(query, "ssid", name);
    ParseFormLastWins(query, 0, "ssid");
  }

  /** `GET /scan?ssid=<name>` asks about `name` in both modes when the name is clean. */
  lemma {:induction false} ScanForSsid(mode: Mode, apAddress: string, cfg: Config, pin: int, name: string)
    requires Clean(name)
    ensures Respond(mode, apAddress, cfg, pin, RequestLine("GET", "/scan?" + Field("ssid", name))).response
      == ScanReply(name)
  {
    var query := Field("ssid", name);
    ScanPath(query);
    assert Lookup(ParseForm(query), "ssid") == Some(name) by {
      SsidQuery(name);
    }
  }

  /** `/scan?<query>` is a known path that the scan branch takes, with `<query>` as its query. */
  lemma {:induction false} ScanPath(query: string)
    ensures var path := "/scan?" + query;
      Query(path) == query && StartsWith(path, "/scan") && IsKnownPath(path)
  {
    var path := "/scan?" + query;
    assert Query(path) == query by {
      assert path == "/scan" + ['?'] + query;
      SplitOnceAt("/scan", '?', query);
    }
    assert StartsWith(path, "/scan?") && StartsWith(path, "/scan") by {
      assert path[..6] == "/scan?";
    }
    assert IsKnownPath(path) by {
      KnownPathIff(path);
    }
  }

  /** `/scanner` is such a path: scanned for in station mode, redirected in access-point mode. */
  lemma ScannerIsUnknown()
    ensures StartsWith("/scanner", "/scan") && !IsKnownPath("/scanner")
  {
    var p := "/scanner";
    KnownPathIff(p);
    assert p[1] == 's' && p[2] == 'c' && p[5] == 'n' && |p| == 8;
    DiffersAt(p, "/?", 1);
    DiffersAt(p, "/status?", 2);
    DiffersAt(p, "/config?", 1);
    DiffersAt(p, "/scan?", 5);
    assert p[..5] == "/scan";
  }

  /**
   `/config` is matched exactly: a path `/config?<anything>` is known, so never
   redirected, yet a GET for it gets 404 in both modes.
   */
  lemma ConfigQueryNotFound(mode: Mode, apAddress: string, cfg: Config, pin: int, query: string)
    ensures Respond(mode, apAddress, cfg, pin, RequestLine("GET", "/config?" + query)).response == NotFound
  {
    var path := "/config?" + query;
    KnownPathIff(path);
    assert path[..8] == "/config?";
    assert path[1] == 'c' && path[4] == 'f' && |path| > 7;
    DiffersAt(path, "/scan", 4);
    DiffersAt(path, "/?", 1);
    DiffersAt(path, "/status", 1);
    assert path != "/config" && path != "/";
  }

  /** Any GET for `/?<query>` is a configuration submission: it saves the applied form and reboots. */
  lemma FormSubmissionSaves(mode: Mode, apAddress: string, cfg: Config, pin: int, query: string)
    ensures Respond(mode, apAddress, cfg, pin, RequestLine("GET", "/?" + query))
      == Exchange(Saved(Submit(cfg, query)), Submit(cfg, query))
  {
    var path := "/?" + query;
    assert path == "/" + ['?'] + query;
    SplitOnceAt("/", '?', query);
    assert Query(path) == query;
    assert path[..2] == "/?";
    KnownPathIff(path);
    assert path[1] == '?';
    DiffersAt(path, "/scan", 1);
    DiffersAt(path, "/config", 1);
    DiffersAt(path, "/status", 1);
  }

  /** A GET for `/config` is answered with the redacted copy in either mode. */
  lemma ConfigRead(mode: Mode, apAddress: string, cfg: Config, pin: int)
    ensures Respond(mode, apAddress, cfg, pin, RequestLine("GET", "/config")) == Exchange(ConfigReply(Redacted(cfg)), cfg)
  {
    KnownPathIff("/config");
    DiffersAt("/config", "/scan", 1);
  }

  /** A `key=value` piece whose key holds no `=` splits at the separator. */
  lemma PieceKey(key: string, value: string)
    requires '=' !in key
    ensures SplitOnce(key + "=" + value, '=') == Some((key, value))
  {
    SplitOnceAt(key, '=', value);
  }

  /** A clean `key=value` piece carries `key` and decodes to `value`. */
  lemma PieceValue(piece: string, key: string, value: string)
    requires piece == key + "=" + value
    requires '=' !in key && '+' !in value && '%' !in value
    ensures KeyIs(piece, key)
    ensures ValueOf(piece) == value
  {
    PieceKey(key, value);
    DecodeValueSpec(value);
  }

  /** A field is clean when it holds none of the characters the form syntax or its decoding treat specially. */
  predicate Clean(s: string) {
    forall i :: 0 <= i < |s| ==> s[i] !in "&=+%"
  }

  /** The form field `key=value`. */
  function Field(key: string, value: string): string {
    key + "=" + value
  }

  /** The form `k1=v1&k2=v2` with clean fields splits into its two fields. */
  lemma TwoFieldPieces(k1: string, v1: string, k2: string, v2: string)
    requires Clean(k1) && Clean(v1) && Clean(k2) && Clean(v2)
    ensures Split(Field(k1, v1) + "&" + Field(k2, v2), '&') == [Field(k1, v1), Field(k2, v2)]
  {
    var piece0 := Field(k1, v1);
    var piece1 := Field(k2, v2);
    assert '&' !in piece0 && '&' !in piece1;
    assert piece0 + "&" + piece1 == piece0 + ['&'] + piece1;
    SplitAtSeparator(piece0, '&', piece1);
    SplitNoSeparator(piece1, '&');
  }

  /** The form `k1=v1&k2=v2` with clean fields decodes to exactly those two entries. */
  lemma TwoFieldForm(k1: string, v1: string, k2: string, v2: string, other: string)
    requires Clean(k1) && Clean(v1) && Clean(k2) && Clean(v2) && k1 != k2
    requires other != k1 && other != k2
    ensures var form := ParseForm(Field(k1, v1) + "&" + Field(k2, v2));
      && Lookup(form, k1) == Some(v1)
      && Lookup(form, k2) == Some(v2)
      && Lookup(form, other) == None
  {
    var piece0 := Field(k1, v1);
    var piece1 := Field(k2, v2);
    var query := piece0 + "&" + piece1;
    TwoFieldPieces(k1, v1, k2, v2);
    var pieces := Split(query, '&');
    PieceValue(piece0, k1, v1);
    PieceValue(piece1, k2, v2);
    PieceKey(k1, v1);
    PieceKey(k2, v2);
    assert !KeyIs(piece1, k1) && !KeyIs(piece0, other) && !KeyIs(piece1, other);
    ParseFormLastWins(query, 0, k1);
    ParseFormLastWins(query, 1, k2);
    ParseFormAbsent(query, other);
  }

  /** The query `ssid=<name>&mqtt_port=<n>`. */
  function SsidPortQuery(ssid: string, port: nat): string {
    Field("ssid", ssid) + "&" + Field("mqtt_port", ShowInt(port))
  }

  /**
   Applying `ssid=<name>&mqtt_port=<n>` stores the name and the port as an
   integer and keeps the password.
   */
  lemma SubmitSsidPort(cfg: Config, ssid: string, port: nat)
    requires "ssid" in cfg && "mqtt_port" in cfg && "password" in cfg
    requires |ssid| > 0 && Clean(ssid) && forall i :: 0 <= i < |ssid| ==> !IsSpace(ssid[i])
    ensures var c := Submit(cfg, SsidPortQuery(ssid, port));
      && c.Keys == cfg.Keys
      && c["ssid"] == Str(ssid)
      && c["mqtt_port"] == Int(port)
      && c["password"] == cfg["password"]
  {
    var digits := ShowInt(port);
    var query := SsidPortQuery(ssid, port);
    assert Clean(digits) by {
      assert forall i :: 0 <= i < |digits| ==> IsDigit(digits[i]);
    }
    assert "ssid" != "mqtt_port" && "password" != "ssid" && "password" != "mqtt_port" by {
      assert "ssid"[0] == 's' && "mqtt_port"[0] == 'm' && "password"[0] == 'p';
    }
    assert Clean("ssid") && Clean("mqtt_port");
    TwoFieldForm("ssid", ssid, "mqtt_port", digits, "password");
    SubmitRules(cfg, query, "ssid");
    SubmitRules(cfg, query, "mqtt_port");
    SubmitRules(cfg, query, "password");
    StripClean(ssid);
    ParseShowInt(port);
    assert !IsBlank(ssid) by { assert !IsSpace(ssid[0]); }
  }

  /**
   Submitting `ssid=<name>&mqtt_port=<n>` through `GET /?...` saves a configuration
   with that SSID and port and the old password, and asks for a reboot; a later
   `GET /config` shows the new SSID and port and an empty password.
   */
  lemma SubmitThenReadBack(apAddress: string, cfg: Config, pin: int, ssid: string, port: nat)
    requires "ssid" in cfg && "mqtt_port" in cfg && "password" in cfg
    requires |ssid| > 0 && Clean(ssid) && forall i :: 0 <= i < |ssid| ==> !IsSpace(ssid[i])
    ensures var x := Respond(Station, apAddress, cfg, pin, RequestLine("GET", "/?" + SsidPortQuery(ssid, port)));
      && x.response == Saved(x.stored)
      && x.stored["ssid"] == Str(ssid)
      && x.stored["mqtt_port"] == Int(port)
      && x.stored["password"] == cfg["password"]
      && Respond(Station, apAddress, x.stored, pin, RequestLine("GET", "/config")).response
         == ConfigReply(x.stored["password" := Str("")])
  {
    var query := SsidPortQuery(ssid, port);
    FormSubmissionSaves(Station, apAddress, cfg, pin, query);
    SubmitSsidPort(cfg, ssid, port);
    ConfigRead(Station, apAddress, Submit(cfg, query), pin);
  }
}

=== FILE: mqtt.dfy ===
/**
 `publish_mqtt_status` (MicroPython/main.py): the decision whether to publish the
 machine status, the literal payload, and what happens to the session on success
 and on failure. The MQTT transport is outside the model: whether `publish`
 succeeds is an input.
 */
module Mqtt {
  import opened Wrappers
  import opened Text
  import opened Config
  import opened Cnc

  /** `mqtt_client` present or not, and `last_status` (`None` before the first publish). */
  datatype Publisher = Publisher(connected: bool, last: Option<Status>)

  datatype Message = Message(topic: string, payload: string)

  /** The new publisher state and the message that reached the broker, if any. */
  datatype Step = Step(next: Publisher, sent: Option<Message>)

  /** `"key":d` as the payload writes a member. */
  function Member(key: string, d: char): string {
    "\"" + key + "\":" + [d]
  }

  /**
   `{"cycle":c,"L1":0,"L2":0,"L3":0}` with `c` 1 for ONLINE and 0 otherwise,
   written out member by member so the key order is fixed.
   */
  function Payload(s: Status): string {
    var members := Member("cycle", if s == Online then '1' else '0') + "," + Member("L1", '0') + ","
      + Member("L2", '0') + "," + Member("L3", '0');
    "{" + members + "}"
  }

  /** The value of `cycle` read back from a payload: the character after `{"cycle":`. */
  function CycleOf(payload: string): Option<int> {
    if |payload| >= 10 && payload[..9] == "{\"cycle\":" then
      if payload[9] == '1' then Some(1) else if payload[9] == '0' then Some(0) else None
    else None
  }

  /**
   One `"key":d` member of a flat JSON object whose values are single digits,
   read back as the key and the digit's value.
   */
  function FieldOf(member: string): Option<(string, nat)> {
    match SplitOnce(member, ':')
    case None => None
    case Some((k, v)) =>
      if |k| >= 2 && k[0] == '"' && k[|k| - 1] == '"' && |v| == 1 && IsDigit(v[0])
      then Some((k[1..|k| - 1], DigitOf(v[0])))
      else None
  }

  function FieldsOf(members: seq<string>): Option<seq<(string, nat)>> {
    if |members| == 0 then Some([])
    else
      match (FieldOf(members[0]), FieldsOf(members[1..]))
      case (Some(f), Some(fs)) => Some([f] + fs)
      case _ => None
  }

  /**
   The members of a `{...}` JSON object with single-digit values, in the order
   they are written; `None` if the text is not of that form.
   */
  function Fields(payload: string): Option<seq<(string, nat)>> {
    if |payload| >= 2 && payload[0] == '{' && payload[|payload| - 1] == '}' then
      FieldsOf(Split(payload[1..|payload| - 1], ','))
    else None
  }

  /** `current_config['mqtt_topic']`, when it is a string; otherwise the lookup or `encode` raises. */
  function Topic(cfg: Config): Option<string> {
    if "mqtt_topic" in cfg && cfg["mqtt_topic"].Str? then Some(cfg["mqtt_topic"].s) else None
  }

  /** Whether the call tries to publish: a session exists and the status changed or the timer forces it. */
  predicate Attempts(p: Publisher, status: Status, forced: bool) {
    p.connected && (p.last != Some(status) || forced)
  }

  /**
   One call of `publish_mqtt_status` with the current status `status`; `forced`
   is true when a timer (or the boot sequence's `timer=True`) calls it, and
   `delivered` says whether the client's `publish` returns normally.
   */
  function Publish(p: Publisher, cfg: Config, status: Status, forced: bool, delivered: bool): (r: Step)
    ensures !p.connected ==> r == Step(p, None)
    ensures r.sent.Some? ==> r.next == Publisher(true, Some(status))
    ensures r.sent.None? ==> r.next.last == p.last
  {
    if !p.connected then Step(p, None)
    else if p.last == Some(status) && !forced then Step(p, None)
    else
      match Topic(cfg)
      case None => Step(Publisher(false, p.last), None)
      case Some(topic) =>
        if delivered then Step(Publisher(true, Some(status)), Some(Message(topic, Payload(status))))
        else Step(Publisher(false, p.last), None)
  }

  // ---------------------------------------------------------------------------
  // Properties

  /** The payload carries `cycle` 1 exactly for ONLINE, and is otherwise fixed. */
  lemma PayloadRoundTrip(s: Status)
    ensures CycleOf(Payload(s)) == Some(if s == Online then 1 else 0)
    ensures |Payload(s)| == 32
  {
    var d := if s == Online then '1' else '0';
    var m := Member("cycle", d);
    var rest := "," + Member("L1", '0') + "," + Member("L2", '0') + "," + Member("L3", '0') + "}";
    var p := Payload(s);
    assert p == "{" + m + rest;
    assert |m| == 9 && |rest| == 22;
    assert p[..9] == "{\"cycle\":" by {
      assert p[..9] == "{" + m[..8];
      assert m[..8] == "\"cycle\":";
    }
    assert p[9] == d;
  }

  lemma {:induction false} MemberRoundTrip(key: string, d: char)
    requires ':' !in key && IsDigit(d)
    ensures FieldOf(Member(key, d)) == Some((key, DigitOf(d)))
  {
    var k := "\"" + key + "\"";
    assert ':' !in k;
    assert Member(key, d) == k + [':'] + [d];
    SplitOnceAt(k, ':', [d]);
    assert k[1..|k| - 1] == key;
  }

  /** A braced text is decoded by splitting what is between the braces at its commas. */
  lemma FieldsBraced(x: string)
    ensures Fields("{" + x + "}") == FieldsOf(Split(x, ','))
  {
    assert ("{" + x + "}")[1..|x| + 1] == x;
  }

  /** Members that each decode give the list of their fields, in order. */
  lemma {:induction false} FieldsOfAll(ms: seq<string>, fs: seq<(string, nat)>)
    requires |ms| == |fs| && forall i :: 0 <= i < |ms| ==> FieldOf(ms[i]) == Some(fs[i])
    ensures FieldsOf(ms) == Some(fs)
  {
    if |ms| > 0 {
      FieldsOfAll(ms[1..], fs[1..]);
      assert fs == [fs[0]] + fs[1..];
    }
  }

  /** Four comma-free members joined by commas split back into those members. */
  lemma {:induction false} SplitFour(m0: string, m1: string, m2: string, m3: string)
    requires ',' !in m0 && ',' !in m1 && ',' !in m2 && ',' !in m3
    ensures Split(m0 + "," + m1 + "," + m2 + "," + m3, ',') == [m0, m1, m2, m3]
  {
    var t2 := m2 + "," + m3;
    var t1 := m1 + "," + t2;
    assert m0 + "," + m1 + "," + m2 + "," + m3 == m0 + [','] + t1;
    SplitNoSeparator(m3, ',');
    SplitAtSeparator(m2, ',', m3);
    SplitAtSeparator(m1, ',', t2);
    SplitAtSeparator(m0, ',', t1);
  }

  lemma MemberNoComma(key: string, d: char)
    requires ',' !in key && IsDigit(d)
    ensures ',' !in Member(key, d)
  {
  }

  /** Members `"k0":d`, `"k1":0`, `"k2":0`, `"k3":0` decode to their keys and digit values. */
  lemma MembersDecode(k0: string, k1: string, k2: string, k3: string, d: char)
    requires ':' !in k0 && ':' !in k1 && ':' !in k2 && ':' !in k3 && IsDigit(d)
    ensures FieldsOf([Member(k0, d), Member(k1, '0'), Member(k2, '0'), Member(k3, '0')])
      == Some([(k0, DigitOf(d)), (k1, 0), (k2, 0), (k3, 0)])
  {
    var ms := [Member(k0, d), Member(k1, '0'), Member(k2, '0'), Member(k3, '0')];
    var fs: seq<(string, nat)> := [(k0, DigitOf(d)), (k1, 0), (k2, 0), (k3, 0)];
    assert forall i :: 0 <= i < 4 ==> FieldOf(ms[i]) == Some(fs[i]) by {
      assert FieldOf(ms[0]) == Some(fs[0]) by {
        MemberRoundTrip(k0, d);
      }
      assert FieldOf(ms[1]) == Some(fs[1]) && FieldOf(ms[2]) == Some(fs[2]) && FieldOf(ms[3]) == Some(fs[3]) by {
        assert DigitOf('0') == 0;
        MemberRoundTrip(k1, '0');
        MemberRoundTrip(k2, '0');
        MemberRoundTrip(k3, '0');
      }
    }
    FieldsOfAll(ms, fs);
  }

  /**
   The payload is exactly the object `{"cycle":c,"L1":0,"L2":0,"L3":0}`: four
   members in that order, `cycle` 1 exactly for ONLINE and the three line
   fields 0.
   */
  lemma {:induction false} PayloadFields(s: Status)
    ensures Fields(Payload(s)) == Some([("cycle", if s == Online then 1 else 0), ("L1", 0), ("L2", 0), ("L3", 0)])
  {
    var d := if s == Online then '1' else '0';
    var m0, m1, m2, m3 := Member("cycle", d), Member("L1", '0'), Member("L2", '0'), Member("L3", '0');
    var inner := m0 + "," + m1 + "," + m2 + "," + m3;
    assert Payload(s) == "{" + inner + "}";
    FieldsBraced(inner);
    assert Split(inner, ',') == [m0, m1, m2, m3] by {
      MemberNoComma("cycle", d);
      MemberNoComma("L1", '0');
      MemberNoComma("L2", '0');
      MemberNoComma("L3", '0');
      SplitFour(m0, m1, m2, m3);
    }
    assert FieldsOf([m0, m1, m2, m3]) == Some([("cycle", DigitOf(d)), ("L1", 0), ("L2", 0), ("L3", 0)]) by {
      MembersDecode("cycle", "L1", "L2", "L3", d);
    }
    assert DigitOf(d) == if s == Online then 1 else 0;
  }

  /**
   A message is sent exactly when a session exists, the status changed since
   the last successful publish or the call is forced, the topic is a string and
   the transport delivers it; the message is the status payload on the topic.
   A failed attempt tears the session down and keeps `last_status`.
   */
  lemma PublishDecision(p: Publisher, cfg: Config, status: Status, forced: bool, delivered: bool)
    ensures var r := Publish(p, cfg, status, forced, delivered);
      r.sent.Some? <==> Attempts(p, status, forced) && Topic(cfg).Some? && delivered
    ensures var r := Publish(p, cfg, status, forced, delivered);
      r.sent.Some? ==> r.sent.value == Message(Topic(cfg).value, Payload(status))
    ensures var r := Publish(p, cfg, status, forced, delivered);
      Attempts(p, status, forced) && r.sent.None? ==> r.next == Publisher(false, p.last)
    ensures var r := Publish(p, cfg, status, forced, delivered);
      !Attempts(p, status, forced) ==> r == Step(p, None)
  {
  }

  /**
   Two consecutive unforced calls that see the same status publish at most
   once: after a successful publish the second call is a no-op, and after a
   failed one there is no session left.
   */
  lemma UnforcedRepeatPublishesOnce(p: Publisher, cfg: Config, status: Status, d1: bool, d2: bool)
    ensures var first := Publish(p, cfg, status, false, d1);
      var second := Publish(first.next, cfg, status, false, d2);
      second.sent.None? && second.next == first.next
  {
  }

  /** With a session and a string topic, a forced call publishes once whatever the previous status. */
  lemma ForcedAlwaysAttempts(p: Publisher, cfg: Config, status: Status)
    requires p.connected && Topic(cfg).Some?
    ensures Publish(p, cfg, status, true, true).sent == Some(Message(Topic(cfg).value, Payload(status)))
  {
  }
}

=== FILE: network.dfy ===
/**
 The small connectivity decisions of MicroPython/main.py: the station connect
 loop of `connect_wifi`, the boot-time choice between station and access-point
 mode in `main`, and the condition under which `start_mqtt_timer` arms the
 periodic publish. The radio is outside the model: `linkUp(i)` is the answer of
 the `i`-th call of `wlan.isconnected()`.
 */
module Network {
  import opened Wrappers
  import opened Config

  /** Which Wi-Fi interface the firmware runs (`current_mode`). */
  datatype Mode = Station | AccessPoint

  /** Both credentials are truthy (`current_config.get('ssid') and current_config.get('password')`). */
  predicate HasCredentials(cfg: Config) {
    Truthy(cfg, "ssid") && Truthy(cfg, "password")
  }

  const ConnectTimeout: nat := 20

  /**
   `connect_wifi`: without credentials it fails at once. Otherwise it polls the
   link, sleeping one second per failed poll for at most 20 polls, and reports
   the answer of one further poll. `waits` is the number of one-second sleeps.
   */
  method ConnectWifi(cfg: Config, linkUp: nat -> bool) returns (connected: bool, waits: nat)
    ensures !HasCredentials(cfg) ==> !connected && waits == 0
    ensures waits <= ConnectTimeout
    ensures HasCredentials(cfg) ==>
      && (forall i :: 0 <= i < waits ==> !linkUp(i))
      && (waits == ConnectTimeout || linkUp(waits))
      && connected == linkUp(waits + 1)
  {
    if !HasCredentials(cfg) {
      return false, 0;
    }
    var timeout := ConnectTimeout;
    waits := 0;
    while !linkUp(waits) && timeout > 0
      invariant waits + timeout == ConnectTimeout
      invariant forall i :: 0 <= i < waits ==> !linkUp(i)
    {
      timeout := timeout - 1;
      waits := waits + 1;
    }
    connected := linkUp(waits + 1);
  }

  /**
   `main`'s mode choice: station mode exactly when credentials are set and the
   connect attempt succeeds, that is when the poll after the wait loop sees the
   link; access-point mode otherwise. `waits` is the number of one-second sleeps
   of that attempt: the polls before it all failed, and it stopped at the first
   poll that saw the link or after 20 sleeps.
   */
  method BootMode(cfg: Config, linkUp: nat -> bool) returns (mode: Mode, waits: nat)
    ensures !HasCredentials(cfg) ==> mode == AccessPoint && waits == 0
    ensures HasCredentials(cfg) ==>
      && waits <= ConnectTimeout
      && (forall i :: 0 <= i < waits ==> !linkUp(i))
      && (waits == ConnectTimeout || linkUp(waits))
    ensures mode == Station <==> HasCredentials(cfg) && linkUp(waits + 1)
  {
    var connected := false;
    waits := 0;
    if HasCredentials(cfg) {
      connected, waits := ConnectWifi(cfg, linkUp);
    }
    mode := if connected then Station else AccessPoint;
  }

  /** What `start_mqtt_timer` does with the configured interval. */
  datatype TimerPlan =
    | NoTimer
    | Periodic(periodMs: int)
    | Fault   // a non-integer interval: comparing it with 0 raises `TypeError`

  /**
   The periodic publish is armed, every `mqtt_interval * 1000` milliseconds,
   exactly when the interval (0 when absent) is a positive integer and a broker
   is configured.
   */
  function TimerPlanFor(cfg: Config): (plan: TimerPlan)
    ensures plan.Periodic? <==>
      "mqtt_interval" in cfg && cfg["mqtt_interval"].Int? && cfg["mqtt_interval"].n > 0 && Truthy(cfg, "mqtt_broker")
    ensures plan.Periodic? ==>
              plan.periodMs >= 1000 && plan.periodMs % 1000 == 0 && plan.periodMs / 1000 == cfg["mqtt_interval"].n
    ensures plan.Fault? <==> "mqtt_interval" in cfg && cfg["mqtt_interval"].Str?
  {
    var interval := if "mqtt_interval" in cfg then cfg["mqtt_interval"] else Int(0);
    match interval
    case Str(_) => Fault
    case Int(n) => if n > 0 && Truthy(cfg, "mqtt_broker") then Periodic(n * 1000) else NoTimer
  }

  /** With the first-time configuration the firmware tries station mode and arms a 5-second timer. */
  lemma DefaultsPlan()
    ensures HasCredentials(Defaults)
    ensures TimerPlanFor(Defaults) == Periodic(5000)
  {
  }
}

=== FILE: status_display.dfy ===
/**
 `CNCStatusDisplay` (MicroPython/writer.py): the bounded debug log and the frame
 `update_status` draws. A frame is the list of drawing commands issued after the
 display is cleared; how each label becomes glyph cells is `Writer.WriteText`.
 */
module StatusDisplay {
  import opened Wrappers
  import opened Writer

  /** The debug log keeps at most this many lines (`add_debug`). */
  const KeptLines := 10

  /** The frame shows at most this many of them (`max_debug_lines`). */
  const ShownLines := 2

  /** The y position of the first debug row (`debug_y_start`) and the distance between rows. */
  const DebugTop := 45
  const RowStep := 9

  /** The panel height the debug rows are checked against. */
  const PanelHeight := 64

  /** The width, in pixels, labels are truncated to. */
  const LabelWidth := 128

  /** A drawing command of `update_status`. */
  datatype Draw = Label(x: int, y: int, text: string) | HLine(x: int, y: int, length: int)

  /** Python's `s[-n:]` for n > 0: the last `n` elements, or all of them when there are fewer. */
  function LastN(s: seq<string>, n: nat): (r: seq<string>)
    ensures |r| == if |s| <= n then |s| else n
    ensures r == s[|s| - |r|..]
  {
    if |s| <= n then s else s[|s| - n..]
  }

  /**
   `add_debug`: the text becomes the newest line and the log is cut back to its
   ten most recent lines.
   */
  function AddDebug(lines: seq<string>, text: string): (r: seq<string>)
    ensures |r| == if |lines| < KeptLines then |lines| + 1 else KeptLines
    ensures r[|r| - 1] == text
    ensures |r| <= |lines| + 1 && r[..|r| - 1] == lines[|lines| + 1 - |r|..]
  {
    var all := lines + [text];
    if |all| > KeptLines then
      var r := all[|all| - KeptLines..];
      assert r[..|r| - 1] == lines[|lines| + 1 - KeptLines..];
      r
    else
      assert all[..|all| - 1] == lines;
      all
  }

  /** `clear_debug`. */
  function ClearDebug(lines: seq<string>): seq<string> {
    []
  }

  /** `add_debug` applied to each text in turn. */
  function AddAll(lines: seq<string>, texts: seq<string>): seq<string>
    decreases |texts|
  {
    if |texts| == 0 then lines
    else AddAll(AddDebug(lines, texts[0]), texts[1..])
  }

  /** `add_debug` keeps the ten most recent lines of the log with the text appended. */
  lemma AddDebugIsLastN(lines: seq<string>, t: string)
    ensures AddDebug(lines, t) == LastN(lines + [t], KeptLines)
  {
  }

  /** Dropping a prefix keeps the last `n` elements when at least `n` remain. */
  lemma LastNOfSuffix(u: seq<string>, k: nat, n: nat)
    requires k <= |u| && (k == 0 || |u| - k >= n)
    ensures LastN(u[k..], n) == LastN(u, n)
  {
    if k == 0 {
      assert u[k..] == u;
    } else {
      assert u[k..][|u| - k - n..] == u[|u| - n..];
    }
  }

  /** Cutting the log back before or after appending more lines gives the same last lines. */
  lemma LastNAppend(s: seq<string>, more: seq<string>, n: nat)
    ensures LastN(LastN(s, n) + more, n) == LastN(s + more, n)
  {
    var u := s + more;
    var k := |s| - |LastN(s, n)|;
    assert LastN(s, n) + more == u[k..];
    LastNOfSuffix(u, k, n);
  }

  /**
   Whatever texts are added, the log (starting from a log of at most ten lines)
   holds exactly the ten most recent lines in the order they were added.
   */
  lemma {:induction false} AddAllWindow(lines: seq<string>, texts: seq<string>)
    requires |lines| <= KeptLines
    ensures AddAll(lines, texts) == LastN(lines + texts, KeptLines)
    decreases |texts|
  {
    if |texts| == 0 {
      assert lines + texts == lines;
    } else {
      var t := texts[0];
      var rest := texts[1..];
      assert lines + [t] + rest == lines + texts;
      var next := AddDebug(lines, t);
      AddAllWindow(next, rest);
      assert next == LastN(lines + [t], KeptLines) by {
        AddDebugIsLastN(lines, t);
      }
      assert LastN(next + rest, KeptLines) == LastN(lines + [t] + rest, KeptLines) by {
        LastNAppend(lines + [t], rest, KeptLines);
      }
    }
  }

  /** After `clear_debug` the log holds the ten most recent of the texts added since. */
  lemma ClearDebugRestarts(lines: seq<string>, texts: seq<string>)
    ensures AddAll(ClearDebug(lines), texts) == LastN(texts, KeptLines)
  {
    AddAllWindow([], texts);
    assert [] + texts == texts;
  }

  /** The five fixed commands of a frame: status, SSID, IP, separator, debug heading. */
  function Header(w: DisplayWriter, status: string, ssid: string, ip: string): (h: seq<Draw>)
    requires Valid(w)
    ensures |h| == 5 && forall i :: 0 <= i < |h| ==> 0 <= h[i].y < DebugTop
  {
    [ Label(0, 0, "Status: " + status),
      Label(0, 10, "SSID: " + Truncate(w, ssid, LabelWidth)),
      Label(0, 20, "IP: " + ip),
      HLine(0, 32, LabelWidth),
      Label(0, 35, "Debug:") ]
  }

  /** Each shown line truncated to the panel width (`truncate_text(line, 128)`). */
  function Fitted(w: DisplayWriter, shown: seq<string>): (cells: seq<string>)
    requires Valid(w)
    ensures |cells| == |shown|
    ensures forall i :: 0 <= i < |shown| ==> cells[i] == Truncate(w, shown[i], LabelWidth)
  {
    if |shown| == 0 then [] else [Truncate(w, shown[0], LabelWidth)] + Fitted(w, shown[1..])
  }

  /**
   The debug rows for the (already truncated) cells, the first of them being row
   `first`: row i sits at `DebugTop + RowStep * i` and is drawn only while that is
   above the panel's bottom edge.
   */
  function DebugRows(cells: seq<string>, first: nat): (rows: seq<Draw>)
    ensures |rows| <= |cells|
    decreases |cells|
  {
    if |cells| == 0 then []
    else
      var y := DebugTop + RowStep * first;
      if y < PanelHeight then [Label(0, y, cells[0])] + DebugRows(cells[1..], first + 1)
      else DebugRows(cells[1..], first + 1)
  }

  /** Every row is a label at the left edge, below the header and above the bottom edge. */
  predicate RowsOnPanel(rows: seq<Draw>) {
    forall i :: 0 <= i < |rows| ==> rows[i].Label? && rows[i].x == 0 && DebugTop <= rows[i].y < PanelHeight
  }

  /** Row i shows cell i at the height of row `first + i`. */
  predicate RowsShow(rows: seq<Draw>, cells: seq<string>, first: nat) {
    |rows| == |cells| &&
    forall i :: 0 <= i < |cells| ==> rows[i] == Label(0, DebugTop + RowStep * (first + i), cells[i])
  }

  lemma {:induction false} DebugRowsOnPanel(cells: seq<string>, first: nat)
    ensures RowsOnPanel(DebugRows(cells, first))
    decreases |cells|
  {
    if |cells| > 0 {
      DebugRowsOnPanel(cells[1..], first + 1);
      var rest := DebugRows(cells[1..], first + 1);
      var y := DebugTop + RowStep * first;
      if y < PanelHeight {
        var rows := [Label(0, y, cells[0])] + rest;
        assert DebugRows(cells, first) == rows;
        forall i | 0 < i < |rows|
          ensures rows[i].Label? && rows[i].x == 0 && DebugTop <= rows[i].y < PanelHeight
        {
          assert rows[i] == rest[i - 1];
        }
      }
    }
  }

  /** While the rows stay above the bottom edge, every cell is drawn, each in its own row. */
  lemma {:induction false} DebugRowsExact(cells: seq<string>, first: nat)
    requires first + |cells| <= 3
    ensures RowsShow(DebugRows(cells, first), cells, first)
    decreases |cells|
  {
    if |cells| > 0 {
      DebugRowsExact(cells[1..], first + 1);
      var rest := DebugRows(cells[1..], first + 1);
      var rows := [Label(0, DebugTop + RowStep * first, cells[0])] + rest;
      assert DebugRows(cells, first) == rows;
      forall i | 0 < i < |cells|
        ensures rows[i] == Label(0, DebugTop + RowStep * (first + i), cells[i])
      {
        assert rows[i] == rest[i - 1];
        assert cells[1..][i - 1] == cells[i];
      }
    }
  }

  /** The frame drawn for the log `kept`: the header, then the rows of its two newest lines. */
  function Frame(w: DisplayWriter, kept: seq<string>, status: string, ssid: string, ip: string): (f: seq<Draw>)
    requires Valid(w)
    ensures |f| >= 5 && f[..5] == Header(w, status, ssid, ip)
  {
    var f := Header(w, status, ssid, ip) + DebugRows(Fitted(w, LastN(kept, ShownLines)), 0);
    assert f[..5] == Header(w, status, ssid, ip);
    f
  }

  /**
   `update_status`: the new debug log and the frame drawn, or `None` when no
   display is available, in which case nothing is drawn and `debugText` is
   dropped without reaching the log.
   */
  function UpdateStatus(w: DisplayWriter, lines: seq<string>, status: string, ssid: string, ip: string, debugText: string)
    : (r: (seq<string>, Option<seq<Draw>>))
    requires Valid(w)
    ensures !w.available ==> r == (lines, None)
    ensures w.available && debugText != "" ==> r.0 == AddDebug(lines, debugText)
    ensures w.available && debugText == "" ==> r.0 == lines
    ensures w.available ==> r.1.Some? && |r.1.value| >= 5 && r.1.value[..5] == Header(w, status, ssid, ip)
  {
    if !w.available then (lines, None)
    else
      var kept := if debugText != "" then AddDebug(lines, debugText) else lines;
      (kept, Some(Frame(w, kept, status, ssid, ip)))
  }

  /**
   The frame `f` shows, after its five header commands, the newest (at most two)
   lines of `kept`, oldest first, each truncated to the panel width, at y = 45
   and y = 54.
   */
  predicate ShowsNewest(w: DisplayWriter, f: seq<Draw>, kept: seq<string>)
    requires Valid(w)
  {
    var n := if |kept| < ShownLines then |kept| else ShownLines;
    |f| == 5 + n &&
    forall i :: 0 <= i < n ==>
      f[5 + i] == Label(0, DebugTop + RowStep * i, Truncate(w, kept[|kept| - n + i], LabelWidth))
  }

  /** Every command of `f` lies between the top and the bottom edge of the panel. */
  predicate OnPanel(f: seq<Draw>) {
    forall i :: 0 <= i < |f| ==> 0 <= f[i].y < PanelHeight
  }

  lemma FrameRows(w: DisplayWriter, kept: seq<string>, status: string, ssid: string, ip: string)
    requires Valid(w)
    ensures ShowsNewest(w, Frame(w, kept, status, ssid, ip), kept)
  {
    var shown := LastN(kept, ShownLines);
    var cells := Fitted(w, shown);
    var rows := DebugRows(cells, 0);
    var f := Frame(w, kept, status, ssid, ip);
    DebugRowsExact(cells, 0);
    assert f == Header(w, status, ssid, ip) + rows;
    forall i | 0 <= i < |shown|
      ensures f[5 + i] == Label(0, DebugTop + RowStep * i, Truncate(w, kept[|kept| - |shown| + i], LabelWidth))
    {
      assert f[5 + i] == rows[i];
      assert shown[i] == kept[|kept| - |shown| + i];
    }
  }

  lemma FrameRowsOnPanel(w: DisplayWriter, kept: seq<string>, status: string, ssid: string, ip: string)
    requires Valid(w)
    ensures OnPanel(Frame(w, kept, status, ssid, ip))
  {
    var h := Header(w, status, ssid, ip);
    var cells := Fitted(w, LastN(kept, ShownLines));
    var rows := DebugRows(cells, 0);
    var f := Frame(w, kept, status, ssid, ip);
    DebugRowsOnPanel(cells, 0);
    assert f == h + rows;
    forall i | 0 <= i < |f| ensures 0 <= f[i].y < PanelHeight {
      if i < 5 {
        assert f[i] == h[i];
      } else {
        assert f[i] == rows[i - 5];
      }
    }
  }

  /**
   The debug area of a frame shows the two most recent lines of the updated log,
   oldest first, each truncated to the panel width, at y = 45 and y = 54.
   */
  lemma DebugArea(w: DisplayWriter, lines: seq<string>, status: string, ssid: string, ip: string, debugText: string)
    requires Valid(w) && w.available
    ensures UpdateStatus(w, lines, status, ssid, ip, debugText).1.Some?
    ensures ShowsNewest(w, UpdateStatus(w, lines, status, ssid, ip, debugText).1.value,
                        UpdateStatus(w, lines, status, ssid, ip, debugText).0)
  {
    var kept := UpdateStatus(w, lines, status, ssid, ip, debugText).0;
    FrameRows(w, kept, status, ssid, ip);
  }

  /** The last command of a frame shows the newest line of a non-empty log. */
  lemma FrameNewest(w: DisplayWriter, kept: seq<string>, status: string, ssid: string, ip: string)
    requires Valid(w) && |kept| > 0
    ensures var f := Frame(w, kept, status, ssid, ip);
      |f| > 5 && f[|f| - 1] == Label(0, DebugTop + RowStep * (|f| - 6), Truncate(w, kept[|kept| - 1], LabelWidth))
  {
    var f := Frame(w, kept, status, ssid, ip);
    var n := if |kept| < ShownLines then |kept| else ShownLines;
    var last := Label(0, DebugTop + RowStep * (n - 1), Truncate(w, kept[|kept| - 1], LabelWidth));
    assert |f| == 5 + n && f[5 + (n - 1)] == last by {
      FrameRows(w, kept, status, ssid, ip);
      assert |kept| - n + (n - 1) == |kept| - 1;
    }
  }

  /** A non-empty debug text appears as the last row of the frame it is passed with. */
  lemma NewestDebugShown(w: DisplayWriter, lines: seq<string>, status: string, ssid: string, ip: string, debugText: string)
    requires Valid(w) && w.available && debugText != ""
    ensures UpdateStatus(w, lines, status, ssid, ip, debugText).1.Some?
    ensures var f := UpdateStatus(w, lines, status, ssid, ip, debugText).1.value;
      |f| > 5 && f[|f| - 1] == Label(0, DebugTop + RowStep * (|f| - 6), Truncate(w, debugText, LabelWidth))
  {
    var kept := AddDebug(lines, debugText);
    assert UpdateStatus(w, lines, status, ssid, ip, debugText).1.value == Frame(w, kept, status, ssid, ip);
    FrameNewest(w, kept, status, ssid, ip);
  }

  /** No command of a frame is drawn above the top or below the bottom edge of the panel. */
  lemma FrameOnPanel(w: DisplayWriter, lines: seq<string>, status: string, ssid: string, ip: string, debugText: string)
    requires Valid(w)
    ensures UpdateStatus(w, lines, status, ssid, ip, debugText).1.Some? ==>
      OnPanel(UpdateStatus(w, lines, status, ssid, ip, debugText).1.value)
  {
    if w.available {
      var kept := UpdateStatus(w, lines, status, ssid, ip, debugText).0;
      FrameRowsOnPanel(w, kept, status, ssid, ip);
    }
  }
}

=== FILE: text.dfy ===
/**
 The handful of Python `str` operations the firmware relies on, written out with
 the semantics of MicroPython: `split` with an explicit separator, `split(sep, 1)`,
 `startswith`, `strip()` without arguments, `int()` on a string and `str()` of an integer.
 */
module Text {
  import opened Wrappers

  /** MicroPython's default whitespace for `strip()` and `int()`: space and `\t`..`\r`. */
  predicate IsSpace(c: char) {
    c == ' ' || '\t' <= c <= '\r'
  }

  predicate IsDigit(c: char) {
    '0' <= c <= '9'
  }

  predicate StartsWith(s: string, prefix: string) {
    |prefix| <= |s| && s[..|prefix|] == prefix
  }

  lemma StartsWithAppend(a: string, b: string)
    ensures StartsWith(a + b, a)
  {
    assert (a + b)[..|a|] == a;
  }

  lemma StartsWithTrans(s: string, a: string, b: string)
    requires StartsWith(s, a) && StartsWith(a, b)
    ensures StartsWith(s, b)
  {
    assert s[..|b|] == a[..|b|];
  }

  /** Number of occurrences of `c` in `s`. */
  function Count(s: string, c: char): nat {
    if |s| == 0 then 0 else (if s[0] == c then 1 else 0) + Count(s[1..], c)
  }

  /** `sep.join(parts)`. */
  function Join(parts: seq<string>, sep: char): string {
    if |parts| == 0 then ""
    else if |parts| == 1 then parts[0]
    else parts[0] + [sep] + Join(parts[1..], sep)
  }

  /** `s.split(sep)`: every occurrence of `sep` separates two (possibly empty) pieces. */
  function Split(s: string, sep: char): (parts: seq<string>)
    ensures |parts| == Count(s, sep) + 1
    ensures forall i :: 0 <= i < |parts| ==> sep !in parts[i]
  {
    if |s| == 0 then [""]
    else
      var rest := Split(s[1..], sep);
      if s[0] == sep then [""] + rest
      else [[s[0]] + rest[0]] + rest[1..]
  }

  /** Splitting and re-joining with the same separator gives the original string back. */
  lemma {:induction false} JoinSplit(s: string, sep: char)
    ensures Join(Split(s, sep), sep) == s
  {
    if |s| > 0 {
      JoinSplit(s[1..], sep);
      var rest := Split(s[1..], sep);
      if s[0] == sep {
        assert s == [sep] + s[1..];
      } else if |rest| == 1 {
        assert s == [s[0]] + s[1..];
      } else {
        assert Join(rest, sep) == rest[0] + [sep] + Join(rest[1..], sep);
        assert s == [s[0]] + s[1..];
        assert [[s[0]] + rest[0]] + rest[1..] == [[s[0]] + rest[0]] + rest[1..];
        assert ([[s[0]] + rest[0]] + rest[1..])[1..] == rest[1..];
      }
    }
  }

  lemma {:induction false} SplitNoSeparator(s: string, sep: char)
    requires sep !in s
    ensures Split(s, sep) == [s]
  {
    if |s| > 0 {
      SplitNoSeparator(s[1..], sep);
      assert [s[0]] + s[1..] == s;
    }
  }

  lemma {:induction false} SplitAtSeparator(a: string, sep: char, b: string)
    requires sep !in a
    ensures Split(a + [sep] + b, sep) == [a] + Split(b, sep)
  {
    if |a| == 0 {
      assert (a + [sep] + b)[1..] == b;
    } else {
      assert (a + [sep] + b)[1..] == a[1..] + [sep] + b;
      SplitAtSeparator(a[1..], sep, b);
      assert [a[0]] + a[1..] == a;
    }
  }

  /** Joining pieces that do not contain the separator, then splitting, gives the pieces back. */
  lemma {:induction false} SplitJoin(parts: seq<string>, sep: char)
    requires |parts| >= 1
    requires forall i :: 0 <= i < |parts| ==> sep !in parts[i]
    ensures Split(Join(parts, sep), sep) == parts
  {
    if |parts| == 1 {
      SplitNoSeparator(parts[0], sep);
    } else {
      SplitJoin(parts[1..], sep);
      SplitAtSeparator(parts[0], sep, Join(parts[1..], sep));
      assert [parts[0]] + parts[1..] == parts;
    }
  }

  /**
   `s.split(sep, 1)` unpacked into two names: `None` when `sep` does not occur
   (Python raises `ValueError` on the unpacking), otherwise the text before the
   FIRST occurrence and everything after it.
   */
  function SplitOnce(s: string, sep: char): (r: Option<(string, string)>)
    ensures r.None? <==> sep !in s
    ensures r.Some? ==> sep !in r.value.0 && s == r.value.0 + [sep] + r.value.1
  {
    if |s| == 0 then None
    else if s[0] == sep then Some(([], s[1..]))
    else
      match SplitOnce(s[1..], sep)
      case None => None
      case Some(p) => Some(([s[0]] + p.0, p.1))
  }

  /** The first-occurrence split is the only split whose left part is free of the separator. */
  lemma {:induction false} SplitOnceAt(a: string, sep: char, b: string)
    requires sep !in a
    ensures SplitOnce(a + [sep] + b, sep) == Some((a, b))
  {
    if |a| == 0 {
      assert a + [sep] + b == [sep] + b;
    } else {
      assert (a + [sep] + b)[1..] == a[1..] + [sep] + b;
      SplitOnceAt(a[1..], sep, b);
      assert [a[0]] + a[1..] == a;
    }
  }

  /** `Count` adds up over concatenation. */
  lemma {:induction false} CountAppend(a: string, b: string, c: char)
    ensures Count(a + b, c) == Count(a, c) + Count(b, c)
  {
    if |a| > 0 {
      CountAppend(a[1..], b, c);
      assert (a + b)[1..] == a[1..] + b;
    } else {
      assert a + b == b;
    }
  }

  lemma {:induction false} CountAbsent(s: string, c: char)
    ensures c !in s <==> Count(s, c) == 0
  {
    if |s| > 0 {
      CountAbsent(s[1..], c);
      assert s == [s[0]] + s[1..];
    }
  }

  /** Splitting once at `sep` removes exactly one occurrence of it. */
  lemma CountSplitOnce(s: string, sep: char)
    ensures SplitOnce(s, sep).None? ==> Count(s, sep) == 0
    ensures SplitOnce(s, sep).Some? ==> Count(s, sep) == 1 + Count(SplitOnce(s, sep).value.1, sep)
  {
    CountAbsent(s, sep);
    match SplitOnce(s, sep)
    case None =>
    case Some(p) =>
      CountAbsent(p.0, sep);
      CountAppend(p.0, [sep] + p.1, sep);
      CountAppend([sep], p.1, sep);
      assert p.0 + [sep] + p.1 == p.0 + ([sep] + p.1);
  }

  function TrimLeft(s: string): string {
    if |s| > 0 && IsSpace(s[0]) then TrimLeft(s[1..]) else s
  }

  function TrimRight(s: string): string {
    if |s| > 0 && IsSpace(s[|s| - 1]) then TrimRight(s[..|s| - 1]) else s
  }

  /** `s.strip()`. */
  function Strip(s: string): (r: string)
  {
    TrimRight(TrimLeft(s))
  }

  predicate IsBlank(s: string) {
    forall i :: 0 <= i < |s| ==> IsSpace(s[i])
  }

  /** The number of whitespace characters `lstrip()` removes. */
  function LeadingBlanks(s: string): (n: nat)
    ensures n <= |s|
  {
    if |s| > 0 && IsSpace(s[0]) then 1 + LeadingBlanks(s[1..]) else 0
  }

  /** The number of whitespace characters `rstrip()` removes. */
  function TrailingBlanks(s: string): (n: nat)
    ensures n <= |s|
  {
    if |s| > 0 && IsSpace(s[|s| - 1]) then 1 + TrailingBlanks(s[..|s| - 1]) else 0
  }

  lemma {:induction false} TrimLeftShape(s: string)
    ensures TrimLeft(s) == s[LeadingBlanks(s)..]
    ensures IsBlank(s[..LeadingBlanks(s)])
    ensures |TrimLeft(s)| > 0 ==> !IsSpace(TrimLeft(s)[0])
  {
    if |s| > 0 && IsSpace(s[0]) {
      var t := s[1..];
      TrimLeftShape(t);
      var n := LeadingBlanks(t);
      assert s[n + 1..] == t[n..];
      assert s[..n + 1] == [s[0]] + t[..n];
    }
  }

  lemma {:induction false} TrimRightShape(s: string)
    ensures TrimRight(s) == s[..|s| - TrailingBlanks(s)]
    ensures IsBlank(s[|s| - TrailingBlanks(s)..])
    ensures |TrimRight(s)| > 0 ==> !IsSpace(TrimRight(s)[|TrimRight(s)| - 1])
  {
    if |s| > 0 && IsSpace(s[|s| - 1]) {
      var p := s[..|s| - 1];
      TrimRightShape(p);
      var j := |p| - TrailingBlanks(p);
      assert s[..j] == p[..j];
      assert s[j..] == p[j..] + [s[|s| - 1]];
    } else {
      assert s[..|s|] == s;
    }
  }

  lemma SliceOfSlice(s: string, i: nat, k: nat)
    requires i + k <= |s|
    ensures s[i..][..k] == s[i..i + k] && s[i..][k..] == s[i + k..]
  {
  }

  /** `strip()` is the slice between the leading and the trailing blanks. */
  lemma {:induction false} StripSlice(s: string)
    ensures var i := LeadingBlanks(s);
      var j := |s| - TrailingBlanks(s[i..]);
      && i <= j <= |s| && Strip(s) == s[i..j]
  {
    var i := LeadingBlanks(s);
    var t := s[i..];
    var k := |t| - TrailingBlanks(t);
    assert Strip(s) == s[i..i + k] by {
      assert TrimLeft(s) == t by {
        TrimLeftShape(s);
      }
      assert TrimRight(t) == t[..k] by {
        TrimRightShape(t);
      }
      SliceOfSlice(s, i, k);
    }
  }

  /** What `strip()` removes is blank. */
  lemma {:induction false} StripBorders(s: string)
    ensures var i := LeadingBlanks(s);
      var j := |s| - TrailingBlanks(s[i..]);
      IsBlank(s[..i]) && IsBlank(s[j..])
  {
    var i := LeadingBlanks(s);
    var t := s[i..];
    var k := |t| - TrailingBlanks(t);
    assert i + k == |s| - TrailingBlanks(s[i..]);
    SliceOfSlice(s, i, k);
    assert IsBlank(s[..i]) by {
      TrimLeftShape(s);
    }
    assert IsBlank(t[k..]) by {
      TrimRightShape(t);
    }
  }

  /** The result of `strip()` neither starts nor ends with whitespace. */
  lemma {:induction false} StripEnds(s: string)
    ensures |Strip(s)| > 0 ==> !IsSpace(Strip(s)[0]) && !IsSpace(Strip(s)[|Strip(s)| - 1])
  {
    var t := TrimLeft(s);
    TrimLeftShape(s);
    TrimRightShape(t);
    if |Strip(s)| > 0 {
      assert Strip(s)[0] == t[0];
    }
  }

  /**
   `strip()` removes a blank prefix and a blank suffix and nothing else: the result
   is a slice of the input, bordered by blanks, that neither starts nor ends with
   whitespace.
   */
  lemma {:induction false} StripShape(s: string)
    ensures var i := LeadingBlanks(s);
      var j := |s| - TrailingBlanks(s[i..]);
      && i <= j <= |s| && Strip(s) == s[i..j] && IsBlank(s[..i]) && IsBlank(s[j..])
    ensures |Strip(s)| > 0 ==> !IsSpace(Strip(s)[0]) && !IsSpace(Strip(s)[|Strip(s)| - 1])
  {
    StripSlice(s);
    StripBorders(s);
    StripEnds(s);
  }

  lemma {:induction false} TrimLeftBlank(s: string)
    requires IsBlank(s)
    ensures TrimLeft(s) == ""
  {
    if |s| > 0 {
      assert IsSpace(s[0]);
      TrimLeftBlank(s[1..]);
    }
  }

  /** The result of `strip()` is empty exactly when the input is all whitespace. */
  lemma StripEmptyIffBlank(s: string)
    ensures Strip(s) == "" <==> IsBlank(s)
  {
    if IsBlank(s) {
      TrimLeftBlank(s);
    } else {
      StripShape(s);
      var i := LeadingBlanks(s);
      var j := |s| - TrailingBlanks(s[i..]);
      var k :| 0 <= k < |s| && !IsSpace(s[k]);
      if i <= k < j {
        assert Strip(s)[k - i] == s[k];
      }
    }
  }

  /** `strip()` leaves a string that neither starts nor ends with whitespace unchanged. */
  lemma StripClean(s: string)
    requires |s| > 0 ==> !IsSpace(s[0]) && !IsSpace(s[|s| - 1])
    ensures Strip(s) == s
  {
    assert TrimLeft(s) == s;
  }

  /**
   The value of `c` as a digit when MicroPython parses an integer: `0`..`9` are
   0..9 and the letters of either case continue from 10; every other character
   gets 36, which is a digit in no base.
   */
  function DigitOf(c: char): (d: nat)
    ensures d <= 36
    ensures d < 10 <==> IsDigit(c)
  {
    if '0' <= c <= '9' then c as int - '0' as int
    else if 'a' <= c <= 'z' then c as int - 'a' as int + 10
    else if 'A' <= c <= 'Z' then c as int - 'A' as int + 10
    else 36
  }

  /** Every character of `ds` is a digit of `base`. */
  predicate AllDigitsIn(ds: string, base: nat) {
    forall i :: 0 <= i < |ds| ==> DigitOf(ds[i]) < base
  }

  /** The value of the digits `ds` in `base`, most significant first. */
  function DigitsValue(ds: string, base: nat): nat {
    if |ds| == 0 then 0
    else DigitsValue(ds[..|ds| - 1], base) * base + DigitOf(ds[|ds| - 1])
  }

  predicate AllDigits(s: string) {
    forall i :: 0 <= i < |s| ==> IsDigit(s[i])
  }

  /** The base the letter after a leading `0` selects: `x`, `o`, `b` in either case; 0 for none. */
  function PrefixBase(letter: char): nat {
    if letter == 'x' || letter == 'X' then 16
    else if letter == 'o' || letter == 'O' then 8
    else if letter == 'b' || letter == 'B' then 2
    else 0
  }

  /**
   The base of an unsigned literal and its digits: `0x`, `0o` and `0b` select
   16, 8 and 2 and are dropped; anything else, a lone `0` included, is decimal.
   */
  function BaseAndDigits(t: string): (r: (nat, string))
    ensures r.0 in {2, 8, 10, 16}
  {
    if |t| >= 2 && t[0] == '0' && PrefixBase(t[1]) > 0 then (PrefixBase(t[1]), t[2..]) else (10, t)
  }

  /** An unsigned literal: at least one digit, all of them digits of the base the prefix selects. */
  predicate IsMagnitude(t: string) {
    var bd := BaseAndDigits(t);
    |bd.1| > 0 && AllDigitsIn(bd.1, bd.0)
  }

  predicate HasSign(t: string) {
    |t| > 0 && (t[0] == '+' || t[0] == '-')
  }

  /** What `int()` accepts once the surrounding whitespace is gone: an optional sign, then a magnitude. */
  predicate IsIntLiteral(t: string) {
    if HasSign(t) then IsMagnitude(t[1..]) else IsMagnitude(t)
  }

  /** The value of an unsigned literal. */
  function Magnitude(t: string): nat
    requires IsMagnitude(t)
  {
    var bd := BaseAndDigits(t);
    DigitsValue(bd.1, bd.0)
  }

  /** The literal without its surrounding whitespace, as `int()` reads it. */
  function ParseSigned(t: string): Option<int> {
    if HasSign(t) then
      if IsMagnitude(t[1..]) then
        var v: int := Magnitude(t[1..]);
        Some(if t[0] == '-' then -v else v)
      else None
    else if IsMagnitude(t) then Some(Magnitude(t))
    else None
  }

  /**
   MicroPython's one-argument `int(s)`, which parses with base 0: surrounding
   whitespace is ignored, then an optional sign, an optional `0x`/`0o`/`0b`
   prefix and one or more digits of the base it selects (decimal without one);
   `None` where `int` raises `ValueError`.
   */
  function ParseInt(s: string): (r: Option<int>)
    ensures r.Some? <==> IsIntLiteral(Strip(s))
    ensures r.Some? ==> !IsBlank(s)
  {
    var t := Strip(s);
    StripEmptyIffBlank(s);
    ParseSigned(t)
  }

  function DigitChar(d: nat): (c: char)
    requires d < 10
    ensures IsDigit(c)
  {
    ('0' as int + d) as char
  }

  /** Decimal rendering of a natural number, as `str(n)`. */
  function ShowNat(n: nat): (s: string)
    ensures |s| > 0 && AllDigits(s)
  {
    if n < 10 then [DigitChar(n)] else ShowNat(n / 10) + [DigitChar(n % 10)]
  }

  /** Decimal rendering of an integer, as `str(n)`. */
  function ShowInt(n: int): (s: string) {
    if n < 0 then "-" + ShowNat(-n) else ShowNat(n)
  }

  lemma {:induction false} ShowNatValue(n: nat)
    ensures DigitsValue(ShowNat(n), 10) == n
  {
    if n >= 10 {
      ShowNatValue(n / 10);
      var s := ShowNat(n / 10) + [DigitChar(n % 10)];
      assert s[..|s| - 1] == ShowNat(n / 10);
    }
  }

  /** `str(n)` has no whitespace at either end. */
  lemma ShowIntClean(n: int)
    ensures var s := ShowInt(n);
      |s| > 0 && !IsSpace(s[0]) && !IsSpace(s[|s| - 1])
  {
    var m: nat := if n < 0 then -n else n;
    var digits := ShowNat(m);
    assert IsDigit(digits[0]) && IsDigit(digits[|digits| - 1]);
    if n < 0 {
      assert ShowInt(n) == "-" + digits;
    }
  }

  /** `int(str(n)) == n`: parsing inverts decimal rendering. */
  lemma ParseShowInt(n: int)
    ensures ParseInt(ShowInt(n)) == Some(n)
  {
    var s := ShowInt(n);
    var m: nat := if n < 0 then -n else n;
    var digits := ShowNat(m);
    if n < 0 {
      assert s[1..] == digits;
    }
    assert Strip(s) == s by {
      ShowIntClean(n);
      StripClean(s);
    }
    assert BaseAndDigits(digits) == (10, digits) by {
      assert |digits| >= 2 ==> IsDigit(digits[1]);
    }
    assert DigitsValue(digits, 10) == m by {
      ShowNatValue(m);
    }
  }

  /** `int('0x' + ds)`, and likewise with `0o` and `0b`, reads `ds` in the base the prefix selects. */
  lemma {:induction false} ParsePrefixed(letter: char, ds: string)
    requires PrefixBase(letter) > 0 && |ds| > 0 && AllDigitsIn(ds, PrefixBase(letter))
    ensures ParseInt(['0', letter] + ds) == Some(DigitsValue(ds, PrefixBase(letter)))
  {
    var t := ['0', letter] + ds;
    var base := PrefixBase(letter);
    assert !IsSpace(t[|t| - 1]) by {
      assert t[|t| - 1] == ds[|ds| - 1];
      assert DigitOf(ds[|ds| - 1]) < base;
    }
    assert Strip(t) == t by {
      StripClean(t);
    }
    assert BaseAndDigits(t) == (base, ds) by {
      assert t[1] == letter && t[2..] == ds;
    }
    assert !HasSign(t);
  }

  /** `lstrip()` removes leading whitespace and nothing behind it. */
  lemma {:induction false} TrimLeftBlankPrefix(a: string, u: string)
    requires IsBlank(a)
    ensures TrimLeft(a + u) == TrimLeft(u)
  {
    if |a| > 0 {
      assert (a + u)[1..] == a[1..] + u;
      TrimLeftBlankPrefix(a[1..], u);
    } else {
      assert a + u == u;
    }
  }

  /** `rstrip()` removes trailing whitespace and nothing in front of it. */
  lemma {:induction false} TrimRightBlankSuffix(u: string, b: string)
    requires IsBlank(b)
    ensures TrimRight(u + b) == TrimRight(u)
  {
    if |b| > 0 {
      assert (u + b)[..|u + b| - 1] == u + b[..|b| - 1];
      TrimRightBlankSuffix(u, b[..|b| - 1]);
    } else {
      assert u + b == u;
    }
  }

  lemma {:induction false} StripBlankSuffix(u: string, b: string)
    requires IsBlank(b)
    ensures Strip(u + b) == Strip(u)
  {
    if |u| == 0 {
      assert u + b == b;
      TrimLeftBlank(b);
    } else if IsSpace(u[0]) {
      assert (u + b)[1..] == u[1..] + b;
      StripBlankSuffix(u[1..], b);
    } else {
      TrimRightBlankSuffix(u, b);
    }
  }

  /** Whitespace around the text does not change what `int()` reads. */
  lemma {:induction false} ParseIntPadded(a: string, t: string, b: string)
    requires IsBlank(a) && IsBlank(b)
    ensures ParseInt(a + t + b) == ParseInt(t)
  {
    assert Strip(a + t + b) == Strip(t) by {
      assert a + t + b == a + (t + b);
      TrimLeftBlankPrefix(a, t + b);
      StripBlankSuffix(t, b);
    }
  }

  lemma {:induction false} TrimRightAfter(c: char, u: string)
    requires !IsSpace(c)
    ensures TrimRight([c] + u) == [c] + TrimRight(u)
  {
    if |u| > 0 && IsSpace(u[|u| - 1]) {
      assert ([c] + u)[..|u|] == [c] + u[..|u| - 1];
      TrimRightAfter(c, u[..|u| - 1]);
    } else if |u| > 0 {
      assert ([c] + u)[|u|] == u[|u| - 1];
    }
  }

  /** A non-blank character in front of text that does not start with whitespace survives `strip()`. */
  lemma {:induction false} StripAfter(c: char, t: string)
    requires !IsSpace(c) && (|t| == 0 || !IsSpace(t[0]))
    ensures Strip([c] + t) == [c] + Strip(t)
  {
    assert TrimLeft([c] + t) == [c] + t;
    assert TrimLeft(t) == t;
    TrimRightAfter(c, t);
  }

  /**
   A sign written directly in front of an unsigned literal: `int('+' + t)` reads
   the same value as `int(t)` and `int('-' + t)` its negation; both fail where
   `int(t)` fails.
   */
  lemma {:induction false} ParseSign(t: string)
    requires !HasSign(t) && (|t| == 0 || !IsSpace(t[0]))
    ensures ParseInt("+" + t) == ParseInt(t)
    ensures ParseInt("-" + t) == (match ParseInt(t) case Some(v) => Some(-v) case None => None)
  {
    var u := Strip(t);
    assert !HasSign(u) by {
      assert TrimLeft(t) == t;
      TrimRightShape(t);
      if |u| > 0 {
        assert u[0] == t[0];
      }
    }
    assert Strip("+" + t) == "+" + u && ("+" + u)[1..] == u by {
      StripAfter('+', t);
    }
    assert Strip("-" + t) == "-" + u && ("-" + u)[1..] == u by {
      StripAfter('-', t);
    }
  }

  /** Decimal digits, leading zeros included, read as their decimal value. */
  lemma {:induction false} ParseDecimal(ds: string)
    requires |ds| > 0 && AllDigits(ds)
    ensures ParseInt(ds) == Some(DigitsValue(ds, 10))
  {
    assert Strip(ds) == ds by {
      assert IsDigit(ds[0]) && IsDigit(ds[|ds| - 1]);
      StripClean(ds);
    }
    assert BaseAndDigits(ds) == (10, ds) by {
      assert |ds| >= 2 ==> IsDigit(ds[1]);
    }
    assert AllDigitsIn(ds, 10);
  }
}

=== FILE: wrappers.dfy ===
/** The optional-value datatype shared by every module of the model. */
module Wrappers {

  /** `None` stands for Python's `None` or for "the operation did not apply". */
  datatype Option<+T> = None | Some(value: T) {

    /** The wrapped value, or `default` when there is none (Python's `dict.get(k, default)`). */
    function GetOr(default: T): T {
      match this
      case Some(v) => v
      case None => default
    }
  }
}

=== FILE: writer.dfy ===
/**
 The text layout and drawing logic of `DisplayWriter` (MicroPython/writer.py),
 for a writer with an initialised display and the 5x9 font. Drawing operations
 return the set of pixels they set instead of writing into the SSD1306 buffer.
 */
module Writer {
  import opened Text

  /** One byte per row; bit 7 is the leftmost of the five columns. */
  type Glyph = seq<bv8>

  /** Glyphs indexed by character code minus 32. */
  type Font = seq<Glyph>

  type Pixel = (int, int)

  /**
   The writer's geometry and font; `available` is false when no display was
   found (`self.display is None`).
   */
  datatype DisplayWriter = DisplayWriter(
    width: int, height: int, charWidth: int, charHeight: int, font: Font, available: bool)

  /**
   Character cells of positive size. `DisplayWriter.__init__` sets them only once
   a display is found (6x9 with the 5x9 font, 8x8 without it); the text metrics
   are modelled for such a writer.
   */
  predicate Valid(w: DisplayWriter) {
    w.charWidth > 0 && w.charHeight > 0
  }

  /** The 128x64 panel with the 5x9 font: six pixels per character cell, nine per line. */
  function Ssd1306(font: Font): DisplayWriter {
    DisplayWriter(128, 64, 6, 9, font, true)
  }

  predicate OnScreen(w: DisplayWriter, x: int, y: int) {
    0 <= x < w.width && 0 <= y < w.height
  }

  /** `draw_pixel`: the pixels it sets. */
  function DrawPixel(w: DisplayWriter, x: int, y: int): (lit: set<Pixel>)
    ensures forall p :: p in lit ==> OnScreen(w, p.0, p.1)
    ensures (x, y) in lit <==> w.available && OnScreen(w, x, y)
    ensures forall p :: p in lit ==> p == (x, y)
  {
    if w.available && OnScreen(w, x, y) then {(x, y)} else {}
  }

  // ---------------------------------------------------------------------------
  // Text metrics

  /** `get_text_width`: one character cell per character. */
  function TextWidth(w: DisplayWriter, text: string): (width: int)
    ensures Valid(w) ==> width >= 0 && (width == 0 <==> |text| == 0)
    ensures Valid(w) ==> width >= |text|
    ensures width == |text| * w.charWidth
  {
    |text| * w.charWidth
  }

  /** The width of two texts written one after the other is the sum of their widths. */
  lemma TextWidthAppend(w: DisplayWriter, a: string, b: string)
    ensures TextWidth(w, a + b) == TextWidth(w, a) + TextWidth(w, b)
  {
    assert |a + b| * w.charWidth == |a| * w.charWidth + |b| * w.charWidth;
  }

  /**
   The left edge `center_text` writes at: `(width - text_width) // 2`. The right
   margin equals the left one or exceeds it by one pixel, also when the text is
   wider than the display and both margins are negative.
   */
  function CenterX(w: DisplayWriter, text: string): (x: int)
    ensures var right := w.width - (x + TextWidth(w, text));
      right == x || right == x + 1
  {
    // Python's `//` floors; Dafny's `/` agrees with it for a positive divisor.
    (w.width - TextWidth(w, text)) / 2
  }

  /** Python's `s[:k]`: a negative `k` counts from the end, and the result is clamped. */
  function PyPrefix(s: string, k: int): (r: string)
    ensures |r| == if k >= 0 then (if k <= |s| then k else |s|) else (if |s| + k >= 0 then |s| + k else 0)
    ensures r == s[..|r|]
  {
    if k >= 0 then (if k <= |s| then s[..k] else s)
    else if |s| + k >= 0 then s[..|s| + k] else []
  }

  /** The number of character cells in `maxWidth` pixels (`max_width // char_width`). */
  function MaxChars(w: DisplayWriter, maxWidth: int): int
    requires w.charWidth > 0
  {
    maxWidth / w.charWidth
  }

  /** `truncate_text`. */
  function Truncate(w: DisplayWriter, text: string, maxWidth: int): (r: string)
    requires Valid(w)
    ensures |text| <= MaxChars(w, maxWidth) ==> r == text
    ensures |text| > MaxChars(w, maxWidth) ==>
      |r| >= 3 && |r| - 3 <= |text| && r[|r| - 3..] == "..." && r[..|r| - 3] == text[..|r| - 3]
    ensures |text| > MaxChars(w, maxWidth) >= 3 ==> |r| == MaxChars(w, maxWidth)
  {
    var maxChars := MaxChars(w, maxWidth);
    if |text| <= maxChars then text
    else
      var kept := PyPrefix(text, maxChars - 3);
      var r := kept + "...";
      assert r[..|r| - 3] == kept;
      r
  }

  /**
   Below three character cells the negative slice of `text[:max_chars-3]` counts
   from the end, so a truncated text comes out LONGER than `max_chars`: it keeps
   all but `3 - max_chars` of its characters before the `"..."`.
   */
  lemma TruncateNarrowBudget(w: DisplayWriter, text: string, maxWidth: int)
    requires Valid(w)
    requires MaxChars(w, maxWidth) < 3 && |text| > MaxChars(w, maxWidth)
    ensures var k := |text| + MaxChars(w, maxWidth) - 3;
      |Truncate(w, text, maxWidth)| == (if k >= 0 then k else 0) + 3
    ensures |Truncate(w, text, maxWidth)| > MaxChars(w, maxWidth)
  {
  }

  /**
   The truncated text is at most `max_width` pixels wide (`get_text_width`)
   whenever it already fit or at least three character cells are available.
   */
  lemma TruncateFits(w: DisplayWriter, text: string, maxWidth: int)
    requires Valid(w)
    requires |text| <= MaxChars(w, maxWidth) || MaxChars(w, maxWidth) >= 3
    ensures TextWidth(w, Truncate(w, text, maxWidth)) <= maxWidth
  {
    var m := MaxChars(w, maxWidth);
    var r := Truncate(w, text, maxWidth);
    assert |r| <= m;
    MulMono(w.charWidth, |r|, m);
    assert m * w.charWidth <= maxWidth by {
      assert maxWidth == m * w.charWidth + maxWidth % w.charWidth;
    }
  }

  /** On the 128-pixel panel a label of at most 21 characters is kept, a longer one cut to 21. */
  lemma TruncatePanelWidth(font: Font, text: string)
    ensures |Truncate(Ssd1306(font), text, 128)| == if |text| <= 21 then |text| else 21
  {
    assert MaxChars(Ssd1306(font), 128) == 21;
  }

  // ---------------------------------------------------------------------------
  // Glyphs

  /** The font index of a character: codes outside 32..126 are drawn as a space. */
  function GlyphIndex(c: char): (i: int)
    ensures 0 <= i <= 94
    ensures 32 <= c as int <= 126 ==> i == c as int - 32
    ensures (c as int < 32 || c as int > 126) ==> i == 0
  {
    var code := c as int;
    if code < 32 || code > 126 then 0 else code - 32
  }

  /** `byte & (0x80 >> col)`: the bit of column `col`, counted from the left. */
  predicate BitSet(b: bv8, col: nat)
    requires col < 8
  {
    b & ((0x80 as bv8) >> col) != 0
  }

  /**
   The pixel (px, py) is set by writing `c` at (x, y): its glyph exists, the
   pixel lies in the 5x9 cell within the glyph's rows, its bit is set, and it
   is on the display.
   */
  predicate Inked(w: DisplayWriter, x: int, y: int, c: char, px: int, py: int) {
    var idx := GlyphIndex(c);
    var row := py - y;
    var col := px - x;
    && w.available
    && idx < |w.font|
    && 0 <= row < 9 && row < |w.font[idx]|
    && 0 <= col < 5 && BitSet(w.font[idx][row], col)
    && OnScreen(w, px, py)
  }

  /** `write_char` on the font path: exactly the inked pixels of the character's glyph. */
  method WriteChar(w: DisplayWriter, x: int, y: int, c: char) returns (lit: set<Pixel>)
    requires w.available && |w.font| > 0
    ensures forall p :: p in lit <==> Inked(w, x, y, c, p.0, p.1)
    ensures forall p :: p in lit ==> OnScreen(w, p.0, p.1)
  {
    lit := {};
    var idx := GlyphIndex(c);
    if idx >= |w.font| {
      return;
    }
    var glyph := w.font[idx];
    var row := 0;
    while row < 9
      invariant 0 <= row <= 9
      invariant forall p :: p in lit <==> Inked(w, x, y, c, p.0, p.1) && p.1 - y < row
    {
      if row < |glyph| {
        var b := glyph[row];
        var col := 0;
        while col < 5
          invariant 0 <= col <= 5
          invariant forall p :: p in lit <==>
            Inked(w, x, y, c, p.0, p.1) && (p.1 - y < row || (p.1 - y == row && p.0 - x < col))
        {
          if BitSet(b, col) {
            var px, py := x + col, y + row;
            if OnScreen(w, px, py) {
              lit := lit + DrawPixel(w, px, py);
            }
          }
          col := col + 1;
        }
      }
      row := row + 1;
    }
  }

  /** A character outside the printable range 32..126 inks exactly the pixels a space would. */
  lemma UnprintableAsSpace(w: DisplayWriter, x: int, y: int, c: char, px: int, py: int)
    requires (c as int) < 32 || (c as int) > 126
    ensures Inked(w, x, y, c, px, py) <==> Inked(w, x, y, ' ', px, py)
  {
  }

  // ---------------------------------------------------------------------------
  // The text cursor

  /** A character drawn by `write_text` and where its cell starts. */
  datatype Placement = Placement(x: int, y: int, c: char)

  /**
   Cell `p` comes before cell `q` in reading order without overlapping it: `q` is
   on a lower line, or on the same line at least one character width further right.
   */
  predicate Before(w: DisplayWriter, p: Placement, q: Placement) {
    p.y < q.y || (p.y == q.y && q.x >= p.x + w.charWidth)
  }

  /**
   A cell `write_text` may use for text starting at (x, y): at or below the first
   line, and either at the left edge x or left of the wrap column
   `width - char_width`.
   */
  predicate InArea(w: DisplayWriter, x: int, y: int, p: Placement) {
    p.y >= y && (p.x == x || p.x < w.width - w.charWidth)
  }

  /** The characters of `text` that are drawn: all but the newlines. */
  function Visible(text: string): string {
    if |text| == 0 then ""
    else
      var last := text[|text| - 1];
      Visible(text[..|text| - 1]) + (if last == '\n' then "" else [last])
  }

  /** The drawn characters hold no newline, and there are as many as the text has non-newlines. */
  lemma {:induction false} VisibleCount(text: string)
    ensures '\n' !in Visible(text)
    ensures |Visible(text)| == |text| - Count(text, '\n')
    decreases |text|
  {
    if |text| > 0 {
      var last := text[|text| - 1];
      var init := text[..|text| - 1];
      VisibleCount(init);
      CountAppend(init, [last], '\n');
      assert init + [last] == text;
    }
  }

  /** The characters of the placed cells, in order. */
  function Chars(placed: seq<Placement>): (s: string)
    ensures |s| == |placed|
  {
    if |placed| == 0 then "" else Chars(placed[..|placed| - 1]) + [placed[|placed| - 1].c]
  }

  lemma CharsSnoc(placed: seq<Placement>, p: Placement)
    ensures Chars(placed + [p]) == Chars(placed) + [p.c]
  {
    assert (placed + [p])[..|placed|] == placed;
  }

  lemma VisibleSnoc(s: string, c: char)
    ensures Visible(s + [c]) == Visible(s) + (if c == '\n' then "" else [c])
  {
    assert (s + [c])[..|s|] == s;
  }

  /** One more character of the text keeps the placed cells in step with its visible characters. */
  lemma CharsTrack(text: string, k: nat, placed: seq<Placement>, placed': seq<Placement>, p: Placement)
    requires k < |text| && Chars(placed) == Visible(text[..k])
    requires text[k] == '\n' ==> placed' == placed
    requires text[k] != '\n' ==> placed' == placed + [p] && p.c == text[k]
    ensures Chars(placed') == Visible(text[..k + 1])
  {
    assert text[..k + 1] == text[..k] + [text[k]];
    VisibleSnoc(text[..k], text[k]);
    CharsSnoc(placed, p);
  }

  /**
   A layout of cells for text starting at (x, y): every cell lies in the text's
   area and the cells come in reading order without overlapping.
   */
  predicate Layout(w: DisplayWriter, x: int, y: int, placed: seq<Placement>) {
    && (forall i :: 0 <= i < |placed| ==> InArea(w, x, y, placed[i]))
    && (forall i, j :: 0 <= i < j < |placed| ==> Before(w, placed[i], placed[j]))
  }

  /** Every cell placed so far comes before the cursor (cx, cy). */
  predicate AllBefore(w: DisplayWriter, placed: seq<Placement>, cx: int, cy: int) {
    forall i :: 0 <= i < |placed| ==> Before(w, placed[i], Placement(cx, cy, ' '))
  }

  /** Placing a character at the cursor keeps the layout in reading order. */
  lemma LayoutExtend(w: DisplayWriter, x: int, y: int, placed: seq<Placement>, cx: int, cy: int, c: char)
    requires Layout(w, x, y, placed) && AllBefore(w, placed, cx, cy)
    requires InArea(w, x, y, Placement(cx, cy, c))
    ensures Layout(w, x, y, placed + [Placement(cx, cy, c)])
  {
    var next := placed + [Placement(cx, cy, c)];
    forall i, j | 0 <= i < j < |next| ensures Before(w, next[i], next[j]) {
      if j == |placed| {
        assert Before(w, placed[i], Placement(cx, cy, ' '));
      }
    }
  }

  /** A cursor moving right on its line, or down, stays after every placed cell. */
  lemma CursorAdvance(w: DisplayWriter, placed: seq<Placement>, cx: int, cy: int, cx2: int, cy2: int)
    requires AllBefore(w, placed, cx, cy)
    requires cy2 > cy || (cy2 == cy && cx2 >= cx)
    ensures AllBefore(w, placed, cx2, cy2)
  {
  }

  /**
   The cursor after one character of `write_text` with left edge x: a newline
   moves it back to x and one line (`char_height + 1` pixels) down; any other
   character moves it one cell (`char_width`) right, or back to x one line
   down once it reaches the wrap column `width - char_width`.
   */
  function Advance(w: DisplayWriter, x: int, cx: int, cy: int, c: char): (int, int) {
    if c == '\n' || cx + w.charWidth >= w.width - w.charWidth then (x, cy + w.charHeight + 1)
    else (cx + w.charWidth, cy)
  }

  /** The cells `write_text` draws for `text` with left edge x and the cursor at (cx, cy). */
  function Cells(w: DisplayWriter, x: int, cx: int, cy: int, text: string): seq<Placement>
    decreases |text|
  {
    if |text| == 0 then []
    else
      var next := Advance(w, x, cx, cy, text[0]);
      (if text[0] == '\n' then [] else [Placement(cx, cy, text[0])]) + Cells(w, x, next.0, next.1, text[1..])
  }

  /** Where the cursor stands after `text`. */
  function CursorAfter(w: DisplayWriter, x: int, cx: int, cy: int, text: string): (int, int)
    decreases |text|
  {
    if |text| == 0 then (cx, cy)
    else
      var next := Advance(w, x, cx, cy, text[0]);
      CursorAfter(w, x, next.0, next.1, text[1..])
  }

  /**
   One character of `write_text`'s loop with the cursor at (cx, cy): a newline
   returns the cursor to x one line down; any other character is placed at the
   cursor, which advances by `char_width` and wraps to x one line down once it
   reaches `width - char_width`. The layout stays in reading order.
   */
  method PlaceChar(w: DisplayWriter, x: int, y: int, placed: seq<Placement>, cx: int, cy: int, c: char)
    returns (placed': seq<Placement>, cx': int, cy': int)
    requires Valid(w)
    requires Layout(w, x, y, placed) && AllBefore(w, placed, cx, cy) && InArea(w, x, y, Placement(cx, cy, ' '))
    ensures Layout(w, x, y, placed') && AllBefore(w, placed', cx', cy') && InArea(w, x, y, Placement(cx', cy', ' '))
    ensures c == '\n' ==> placed' == placed && cx' == x && cy' == cy + w.charHeight + 1
    ensures c != '\n' ==> placed' == placed + [Placement(cx, cy, c)]
    ensures c != '\n' && cx + w.charWidth < w.width - w.charWidth ==> cx' == cx + w.charWidth && cy' == cy
    ensures c != '\n' && cx + w.charWidth >= w.width - w.charWidth ==> cx' == x && cy' == cy + w.charHeight + 1
    ensures (cx', cy') == Advance(w, x, cx, cy, c)
  {
    if c == '\n' {
      CursorAdvance(w, placed, cx, cy, x, cy + w.charHeight + 1);
      placed', cx', cy' := placed, x, cy + w.charHeight + 1;
    } else {
      LayoutExtend(w, x, y, placed, cx, cy, c);
      cx' := cx + w.charWidth;
      cy' := cy;
      if cx' >= w.width - w.charWidth {
        cx' := x;
        cy' := cy + w.charHeight + 1;
      }
      placed' := placed + [Placement(cx, cy, c)];
      CursorAdvance(w, placed', cx + w.charWidth, cy, cx', cy');
    }
  }

  /**
   The state of `write_text`'s loop after the first k characters, with the
   cells `placed` drawn and the cursor at (cx, cy): the cells carry the visible
   characters so far in reading order, and together with the cells the rest of
   the text will draw from the cursor they make up the cells of the whole text.
   */
  predicate Progress(w: DisplayWriter, x: int, y: int, text: string, k: nat,
                     placed: seq<Placement>, cx: int, cy: int)
    requires k <= |text|
  {
    && Chars(placed) == Visible(text[..k])
    && InArea(w, x, y, Placement(cx, cy, ' '))
    && Layout(w, x, y, placed)
    && AllBefore(w, placed, cx, cy)
    && Cells(w, x, x, y, text) == placed + Cells(w, x, cx, cy, text[k..])
  }

  /** One iteration of `write_text`'s loop: character k is handled and the state advances. */
  method WriteStep(w: DisplayWriter, x: int, y: int, text: string, k: nat,
                   placed: seq<Placement>, cx: int, cy: int)
    returns (placed': seq<Placement>, cx': int, cy': int)
    requires Valid(w) && k < |text| && Progress(w, x, y, text, k, placed, cx, cy)
    ensures Progress(w, x, y, text, k + 1, placed', cx', cy')
  {
    placed', cx', cy' := PlaceChar(w, x, y, placed, cx, cy, text[k]);
    CharsTrack(text, k, placed, placed', Placement(cx, cy, text[k]));
    CellsStep(w, x, cx, cy, text, k);
  }

  /**
   `write_text` on the font path: starting at (x, y), `PlaceChar` for each
   character in turn. The cells drawn are those the cursor rules of `Advance`
   give, they carry the text's characters other than newlines, in order, the
   first at (x, y), in reading order without overlap, and none right of the
   wrap column except at the left edge x.
   */
  method WriteText(w: DisplayWriter, x: int, y: int, text: string) returns (placed: seq<Placement>)
    requires Valid(w) && |w.font| > 0
    ensures !w.available ==> placed == []
    ensures w.available ==> placed == Cells(w, x, x, y, text)
    ensures w.available ==> Chars(placed) == Visible(text)
    ensures w.available && |text| > 0 && text[0] != '\n' ==> |placed| > 0 && placed[0] == Placement(x, y, text[0])
    ensures Layout(w, x, y, placed)
  {
    placed := [];
    if !w.available {
      return;
    }
    var cx, cy := x, y;
    var k := 0;
    assert text[..0] == [] && text[0..] == text;
    while k < |text|
      invariant 0 <= k <= |text|
      invariant Progress(w, x, y, text, k, placed, cx, cy)
    {
      placed, cx, cy := WriteStep(w, x, y, text, k, placed, cx, cy);
      k := k + 1;
    }
    assert text[..k] == text && text[k..] == [];
  }

  /** The cells of `text[k..]`: the cell of `text[k]` unless it is a newline, then those of the rest. */
  lemma CellsStep(w: DisplayWriter, x: int, cx: int, cy: int, text: string, k: nat)
    requires k < |text|
    ensures var next := Advance(w, x, cx, cy, text[k]);
      Cells(w, x, cx, cy, text[k..])
        == (if text[k] == '\n' then [] else [Placement(cx, cy, text[k])]) + Cells(w, x, next.0, next.1, text[k + 1..])
  {
    assert text[k..][1..] == text[k + 1..];
  }

  /** The cells of `a + b` are those of `a` followed by those of `b` from where `a` left the cursor. */
  lemma {:induction false} CellsAppend(w: DisplayWriter, x: int, cx: int, cy: int, a: string, b: string)
    ensures var end := CursorAfter(w, x, cx, cy, a);
      && Cells(w, x, cx, cy, a + b) == Cells(w, x, cx, cy, a) + Cells(w, x, end.0, end.1, b)
      && CursorAfter(w, x, cx, cy, a + b) == CursorAfter(w, x, end.0, end.1, b)
    decreases |a|
  {
    if |a| == 0 {
      assert a + b == b;
    } else {
      var next := Advance(w, x, cx, cy, a[0]);
      assert (a + b)[0] == a[0] && (a + b)[1..] == a[1..] + b;
      CellsAppend(w, x, next.0, next.1, a[1..], b);
    }
  }

  /**
   Text without newlines that keeps the cursor left of the wrap column is
   written on the cursor's line, one character cell apart.
   */
  lemma {:induction false} StraightRun(w: DisplayWriter, x: int, cx: int, cy: int, text: string)
    requires Valid(w)
    requires '\n' !in text && cx + |text| * w.charWidth < w.width - w.charWidth
    ensures |Cells(w, x, cx, cy, text)| == |text|
    ensures forall i :: 0 <= i < |text| ==> Cells(w, x, cx, cy, text)[i] == Placement(cx + i * w.charWidth, cy, text[i])
    ensures CursorAfter(w, x, cx, cy, text) == (cx + |text| * w.charWidth, cy)
    decreases |text|
  {
    if |text| > 0 {
      var n := |text|;
      var cw := w.charWidth;
      assert cx + n * cw == (cx + cw) + (n - 1) * cw;
      assert (n - 1) * cw >= 0;
      assert Advance(w, x, cx, cy, text[0]) == (cx + cw, cy);
      StraightRun(w, x, cx + cw, cy, text[1..]);
      var cells := Cells(w, x, cx, cy, text);
      assert cells == [Placement(cx, cy, text[0])] + Cells(w, x, cx + cw, cy, text[1..]);
      forall i | 0 <= i < n ensures cells[i] == Placement(cx + i * cw, cy, text[i]) {
        if i > 0 {
          assert (cx + cw) + (i - 1) * cw == cx + i * cw;
        }
      }
    }
  }

  /** A newline draws nothing and restarts the text at the left edge x, one line further down. */
  lemma NewlineStep(w: DisplayWriter, x: int, cx: int, cy: int, a: string, b: string)
    ensures var end := CursorAfter(w, x, cx, cy, a);
      Cells(w, x, cx, cy, a + "\n" + b) == Cells(w, x, cx, cy, a) + Cells(w, x, x, end.1 + w.charHeight + 1, b)
  {
    assert a + "\n" + b == a + ("\n" + b);
    CellsAppend(w, x, cx, cy, a, "\n" + b);
    assert ("\n" + b)[1..] == b;
  }

  /**
   A character that brings the cursor to the wrap column is drawn where the
   cursor stands, and the next one starts at the left edge x one line down.
   */
  lemma WrapStep(w: DisplayWriter, x: int, cx: int, cy: int, c: char, b: string)
    requires c != '\n' && cx + w.charWidth >= w.width - w.charWidth
    ensures Cells(w, x, cx, cy, [c] + b) == [Placement(cx, cy, c)] + Cells(w, x, x, cy + w.charHeight + 1, b)
  {
    assert ([c] + b)[1..] == b;
  }

  // ---------------------------------------------------------------------------
  // Lines

  function Abs(n: int): nat {
    if n < 0 then -n else n
  }

  /** `v` lies between `a` and `b`, inclusive, in either order. */
  predicate Between(a: int, v: int, b: int) {
    (a <= v <= b) || (b <= v <= a)
  }

  /** Two distinct pixels that touch, sideways or diagonally. */
  predicate Adjacent(p: Pixel, q: Pixel) {
    p != q && Abs(p.0 - q.0) <= 1 && Abs(p.1 - q.1) <= 1
  }

  lemma MulMono(a: int, b: int, c: int)
    requires a >= 0 && b <= c
    ensures a * b <= a * c
  {
  }

  /**
   One step of Bresenham's walk after `stepsX` horizontal and `stepsY` vertical
   moves, with the error term `err` of `draw_line`: a finished coordinate never
   moves again, at least one coordinate moves, and the updated error term keeps
   its closed form.
   */
  lemma BresenhamStep(dx: int, dy: int, stepsX: int, stepsY: int, err: int)
    requires 0 <= stepsX <= dx && 0 <= stepsY <= dy
    requires stepsX < dx || stepsY < dy
    requires err == dx * (1 + stepsY) - dy * (1 + stepsX)
    ensures stepsX == dx ==> 2 * err <= -dy
    ensures stepsY == dy ==> 2 * err >= dx
    ensures 2 * err > -dy || 2 * err < dx
    ensures err - dy == dx * (1 + stepsY) - dy * (1 + (stepsX + 1))
    ensures err + dx == dx * (1 + (stepsY + 1)) - dy * (1 + stepsX)
    ensures err - dy + dx == dx * (1 + (stepsY + 1)) - dy * (1 + (stepsX + 1))
  {
    if stepsX == dx {
      MulMono(dx, stepsY, dy - 1);
    }
    if stepsY == dy {
      MulMono(dy, stepsX, dx - 1);
    }
  }

  /**
   A walk from (x1, y1) towards (x2, y2): it starts at (x1, y1), every step goes
   to an adjacent pixel, and no point leaves the rectangle the endpoints span.
   */
  predicate Walk(path: seq<Pixel>, x1: int, y1: int, x2: int, y2: int) {
    && |path| >= 1 && path[0] == (x1, y1)
    && (forall i :: 0 < i < |path| ==> Adjacent(path[i - 1], path[i]))
    && (forall i :: 0 <= i < |path| ==> Between(x1, path[i].0, x2) && Between(y1, path[i].1, y2))
  }

  lemma WalkExtend(path: seq<Pixel>, p: Pixel, x1: int, y1: int, x2: int, y2: int)
    requires Walk(path, x1, y1, x2, y2)
    requires Adjacent(path[|path| - 1], p) && Between(x1, p.0, x2) && Between(y1, p.1, y2)
    ensures Walk(path + [p], x1, y1, x2, y2)
  {
  }

  /** The pixels set while plotting `path`: its points that are on the display. */
  lemma PlotExtend(w: DisplayWriter, path: seq<Pixel>, lit: set<Pixel>, p: Pixel)
    requires w.available
    requires forall q :: q in lit <==> q in path && OnScreen(w, q.0, q.1)
    ensures forall q :: q in lit + DrawPixel(w, p.0, p.1) <==> q in path + [p] && OnScreen(w, q.0, q.1)
  {
  }

  /**
   `draw_line`, Bresenham's walk from (x1, y1) to (x2, y2): `path` lists the
   points in the order they are plotted and `lit` the pixels that end up set.
   The walk terminates, starts at (x1, y1), ends at (x2, y2), moves to an adjacent
   pixel at every step, never leaves the rectangle spanned by the endpoints, and
   takes at most |x2 - x1| + |y2 - y1| steps.
   */
  method DrawLine(w: DisplayWriter, x1: int, y1: int, x2: int, y2: int) returns (path: seq<Pixel>, lit: set<Pixel>)
    ensures !w.available ==> path == [] && lit == {}
    ensures w.available ==> |path| >= 1 && path[0] == (x1, y1) && path[|path| - 1] == (x2, y2)
    ensures |path| <= Abs(x2 - x1) + Abs(y2 - y1) + 1
    ensures forall i :: 0 < i < |path| ==> Adjacent(path[i - 1], path[i])
    ensures forall i :: 0 <= i < |path| ==> Between(x1, path[i].0, x2) && Between(y1, path[i].1, y2)
    ensures forall p :: p in lit <==> p in path && OnScreen(w, p.0, p.1)
  {
    if !w.available {
      return [], {};
    }
    var dx: int := Abs(x2 - x1);
    var dy: int := Abs(y2 - y1);
    var sx := if x1 < x2 then 1 else -1;
    var sy := if y1 < y2 then 1 else -1;
    var err := dx - dy;
    var x, y := x1, y1;
    ghost var stepsX, stepsY := 0, 0;
    path := [(x, y)];
    lit := DrawPixel(w, x, y);
    while !(x == x2 && y == y2)
      invariant 0 <= stepsX <= dx && 0 <= stepsY <= dy
      invariant x == if x1 < x2 then x1 + stepsX else x1 - stepsX
      invariant y == if y1 < y2 then y1 + stepsY else y1 - stepsY
      invariant err == dx * (1 + stepsY) - dy * (1 + stepsX)
      invariant Walk(path, x1, y1, x2, y2) && path[|path| - 1] == (x, y)
      invariant |path| <= stepsX + stepsY + 1
      invariant forall p :: p in lit <==> p in path && OnScreen(w, p.0, p.1)
      decreases (dx - stepsX) + (dy - stepsY)
    {
      var e2 := 2 * err;
      BresenhamStep(dx, dy, stepsX, stepsY, err);
      ghost var before := (x, y);
      if e2 > -dy {
        err := err - dy;
        x := x + sx;
        stepsX := stepsX + 1;
      }
      if e2 < dx {
        err := err + dx;
        y := y + sy;
        stepsY := stepsY + 1;
      }
      WalkExtend(path, (x, y), x1, y1, x2, y2);
      PlotExtend(w, path, lit, (x, y));
      path := path + [(x, y)];
      lit := lit + DrawPixel(w, x, y);
    }
  }
}
